=== FILE: README.md ===
# IPO listing API: a Dafny model of its decision logic

The system is an Express/PostgreSQL back end for an IPO listing site. It lists and searches
IPOs, sorts them into an active/upcoming/past dashboard, creates an IPO with its details in
one transaction, registers and logs in users, and guards some routes with a cookie-borne
JWT. A second, in-memory router answers the same kinds of lookups from constant arrays.

This project models the parts of those handlers that decide something. SQL execution,
bcrypt, JWT signing and verification, `Date` parsing and formatting, `parseFloat`,
`parseInt`, `toLowerCase` and string-to-number conversion all become parameters: functions
passed in, or `Option` results standing for "the call threw".

Modules, one per file:

- `Wrappers`: `Option` and `Result`.
- `JsValues`: the JavaScript values a request body carries. It defines truthiness, `isNaN`
  and `String.prototype.trim`, with the ECMAScript white-space and line-terminator set.
- `Collections`: `filter` and `find` over sequences. `KeptPositions` gives the positions a
  filter keeps.
- `Auth`: the `authenticate` middleware.
- `SearchQuery`: the `GET /ipos/search` builder. It emits SQL text and a positional parameter
  list in lockstep.
- `Dashboard`: the `GET /ipo-dashboard` categoriser.
- `Pagination`: `page`/`limit` defaulting, the offset, and the page count of `GET /users`
  and `GET /ipos`.
- `CreateIpo`: the `POST /ipo` transaction. It is modelled as a trace of client calls, and a
  session semantics replays the trace.
- `UserRoutes`: `GET /users/:id`, `POST /register` and `POST /login`.
- `IpoUpdate`: `PUT /iposupdate/:id`.
- `DummyRoutes`: the in-memory router.

Behaviours of the code that a reader might not expect, modelled as written:

- `PUT /iposupdate/:id` has no existence check. An update of a missing id answers 200 and
  changes nothing (`IpoUpdate.MissingIpoStillUpdated`).
- The dashboard logs each row's dates with `toISOString()` before comparing them. An invalid
  date therefore makes the whole request answer 500. Such a row does not land in the past
  bucket (`Dashboard.Dashboard`).
- `POST /ipo` issues BEGIN before it validates the request. A 400 answer therefore releases
  a client that still has an open transaction (`CreateIpo.MissingFieldLeavesTransactionOpen`).
- `ipo_id` in the 201 answer reads `.id` from a row returned by `RETURNING company_id`, so it
  is always undefined.
- `GET /users` reports `totalUsers` as the number of rows on the current page.

## Model

| member | source | states |
|---|---|---|
| JsValues.FalsyValues | ipoRoutes.js:280 | exactly undefined, null, false, NaN, 0 and "" fail a `!x` check |
| JsValues.Trim | ipoRoutes.js:458 | the result is a contiguous slice of the input; it neither starts nor ends with white space; everything cut off is white space; it is empty exactly when the input is all white space |
| JsValues.TrimIdempotent | ipoRoutes.js:458 | trimming twice is trimming once |
| Auth.Authenticate | middleware/auth.js:3-19 | a falsy `authToken` cookie gives 401 "Access Denied. No token provided."; a token the verifier rejects gives 400 "Invalid Token" with no user stored; an accepted token stores the decoded claims and calls `next` once with no response; exactly one of the three happens |
| Auth.OnlyAuthTokenConsulted | middleware/auth.js:5 | requests whose `authToken` cookies agree are treated identically, whatever other cookies they carry |
| Auth.NoTokenIgnoresVerifier | middleware/auth.js:7-9 | without a token the verifier is never consulted: any two verifiers give the same 401 |
| Collections.Filter | server/ipoRoutes.js:120 | the result is no longer than the input and holds only input elements that satisfy the predicate |
| Collections.KeptPositionsOrdered | server/ipoRoutes.js:120 | the kept positions are strictly increasing and hold the filtered elements, in order |
| Collections.KeptPositionsExact | server/ipoRoutes.js:120 | a position is kept exactly when its element satisfies the predicate |
| Collections.FilterKeepsMatches | server/ipoRoutes.js:120 | every matching element survives the filter |
| Collections.FilterEmptyIff | server/ipoRoutes.js:120-121 | the filter is empty exactly when no element matches |
| Collections.FindFirst | server/ipoRoutes.js:145 | `find` returns the first matching position, and none exactly when nothing matches |
| Collections.FindNoneIffFilterEmpty | server/ipoRoutes.js:132-139 | `find` finds nothing exactly when `filter` returns an empty array |
| SearchQuery.Start | ipoRoutes.js:447-449 | the initial builder is in lockstep: no parameters, next placeholder `$1`, fixed text only |
| SearchQuery.AppendKeepsLockstep | ipoRoutes.js:453-499 | appending a clause keeps the lockstep: `index` equals the parameter count plus one, the k-th placeholder is `$k`, no user text in the SQL |
| SearchQuery.AppendAllKeepsLockstep | ipoRoutes.js:451-501 | appending the selected clauses one after another keeps the lockstep |
| SearchQuery.ClausePlaceholders | ipoRoutes.js:453-499 | each clause's text holds fixed fragments and the consecutive placeholders for its parameters |
| SearchQuery.PlaceholdersAppend | ipoRoutes.js:453 | the placeholders of concatenated text are those of the parts, in order |
| SearchQuery.AppendAllValues | ipoRoutes.js:446-501 | after all steps the parameters are the clauses' values, in order |
| SearchQuery.AppendAllQuery | ipoRoutes.js:446-501 | after all steps the text is the clauses' tokens, numbered consecutively from the starting index |
| SearchQuery.CloseQuery | ipoRoutes.js:501-503 | appending the ORDER BY to a builder in lockstep keeps the placeholders `$1..$n` and the fixed text, and the query starts with the SELECT and ends with the ORDER BY |
| SearchQuery.NameClause | ipoRoutes.js:452-460 | the name filter fires exactly for a non-empty string and pushes `"%" + trim(name) + "%"` |
| SearchQuery.BlankNameMatchesAll | ipoRoutes.js:458 | a name of white space only binds `%%`, which matches every IPO whose company row has a non-NULL name |
| SearchQuery.DateClause | ipoRoutes.js:464-481 | an unparseable given date is an error; both dates give BETWEEN with two values; one date gives `>=` or `<=` with one; neither gives no clause |
| SearchQuery.PriceClause | ipoRoutes.js:484-500 | BETWEEN exactly when neither bound is NaN (an absent bound is null, which is not NaN); `>=`/`<=` only when the other bound was given and is NaN; nothing when no bound is given or both are NaN; each bound binds its parsed number, or NULL when absent, so NaN is never bound |
| SearchQuery.OneSidedMinimumBindsNull | ipoRoutes.js:485-491 | a minimum with no maximum is bound as `BETWEEN min AND NULL` |
| SearchQuery.OneSidedMaximumBindsNull | ipoRoutes.js:485-491 | a maximum with no minimum is bound as `BETWEEN NULL AND max` |
| SearchQuery.MissingMinimumWithBadMaximum | ipoRoutes.js:485-495 | no minimum and a non-numeric maximum bind `>= NULL` |
| SearchQuery.BuildSearch | ipoRoutes.js:446-503 | fails exactly on an unparseable date; otherwise the placeholders are `$1..$n` for the n values, the text is fixed fragments only, starts with the SELECT and ends with `ORDER BY opening_date DESC`, and is exactly the SELECT, each selected clause's own fragments numbered from `$1` in the order name, date, price, then the ORDER BY; the values are the clauses' values in order |
| SearchQuery.AtMostFiveValues | ipoRoutes.js:446-501 | when both dates are absent or parse, the query builds and binds at most five parameters |
| SearchQuery.AllValuesOfOption | ipoRoutes.js:452-500 | a single filter binds at most two values, and the name filter exactly one |
| SearchQuery.AllValuesAppend | ipoRoutes.js:458-498 | the values of concatenated clause lists are the concatenation of their values |
| SearchQuery.TextDependsOnlyOnKinds | ipoRoutes.js:453-499 | clause lists of the same kinds produce identical text |
| SearchQuery.SearchTextIndependentOfUserData | ipoRoutes.js:446-503 | requests that select the same kinds of filter yield the same SQL text, whatever names, dates and prices they carry |
| SearchQuery.Search | ipoRoutes.js:444-512 | 500 exactly on an unparseable date or a failing query; otherwise the answer is the query's rows |
| Dashboard.Classify | ipoRoutes.js:543-551 | active exactly when opening ≤ now ≤ closing; upcoming exactly when opening > now; past otherwise |
| Dashboard.Relabel | ipoRoutes.js:544-550 | each row is copied with only `status` replaced |
| Dashboard.BucketRowsSnoc | ipoRoutes.js:537-552 | a new row extends exactly the bucket of its class |
| Dashboard.Dashboard | ipoRoutes.js:515-565 | 500 exactly when the query throws or some row has an invalid date; otherwise each bucket is the rows of its class in query order, relabelled, and the sizes add up to the row count |
| Dashboard.Categorize | ipoRoutes.js:537-552 | the loop builds exactly the reference buckets, or fails exactly when a row's dates cannot be logged |
| Dashboard.PushedSnoc | ipoRoutes.js:543-551 | pushing one more row extends only the bucket of its class, by that row relabelled |
| Dashboard.PushedIsBucketRows | ipoRoutes.js:537-552 | building a bucket row by row, as the `forEach` does, gives the rows of that class in query order, relabelled |
| Dashboard.Push | ipoRoutes.js:543-551 | one iteration extends the three buckets to those of the longer prefix |
| Dashboard.BucketSizesSum | ipoRoutes.js:529-552 | the three bucket sizes sum to the number of rows |
| Dashboard.ExactlyOneBucket | ipoRoutes.js:543-551 | every row position is kept by the bucket of its class and by no other |
| Dashboard.BucketPreservesOrderAndFields | ipoRoutes.js:537-552 | a bucket lists its rows at strictly increasing input positions, each with only `status` set to the bucket's label |
| Pagination.OrDefault | ipoRoutes.js:24-25 | NaN and 0 give way to the default; any other parsed value is kept; the result is never 0 when the default is not |
| Pagination.PageWindow | ipoRoutes.js:24-27 | page and limit are each the parsed parameter, or the default (1 and 10) when it is absent, non-numeric or 0; the offset is `(page-1)*limit` for every page |
| Pagination.ConsecutivePagesAdjacent | ipoRoutes.js:27 | page p+1 starts exactly `limit` rows after page p |
| Pagination.TotalPages | ipoRoutes.js:339 | for a positive limit, `totalPages` is the ceiling of rows/limit: `(pages-1)*limit < rows <= pages*limit` |
| Pagination.PageNonEmptyIffWithinTotal | ipoRoutes.js:327-339 | for positive page and limit, the page has rows exactly when page ≤ totalPages |
| Pagination.ListIpos | ipoRoutes.js:323-351 | 500 exactly when a query throws; otherwise the window's page, the rows fetched for the window, the row count and the ceiling page count |
| Pagination.ListUsers | ipoRoutes.js:22-43 | an error exactly when the query throws; otherwise the rows fetched for the window, the window's page and limit, and `totalUsers` the length of this page |
| CreateIpo.TryBlock | ipoRoutes.js:257-313 | the `try` block always issues BEGIN first and never releases the client; when it returns normally the answer is 400 or a 201 with an undefined id; a failing BEGIN, or required fields present with a date that does not format, throws right after the BEGIN |
| CreateIpo.FormatDates | ipoRoutes.js:284-287 | formatting throws exactly when the opening date, the closing date or a truthy `created_at` is invalid; otherwise the formatted dates, with `created_at` null when falsy |
| CreateIpo.CreateIpo | ipoRoutes.js:255-321 | without a connection nothing happens; otherwise BEGIN comes first, the client is released exactly once and last, a 500 follows a ROLLBACK, and a 201 carries an undefined `ipo_id` |
| CreateIpo.MissingFieldNoInsert | ipoRoutes.js:280-282 | a falsy required field issues no INSERT; after a successful BEGIN the trace is BEGIN, release and the answer 400 |
| CreateIpo.SuccessTrace | ipoRoutes.js:258-313 | with nothing failing the trace is BEGIN, INSERT ipos, INSERT ipo_details, COMMIT, release, and the answer is 201 |
| CreateIpo.InsertBindsRequest | ipoRoutes.js:296-299 | the ipos insert binds the request's id, source, price and issue size and the formatted dates |
| CreateIpo.EarlyThrowRollsBack | ipoRoutes.js:258-287 | a failing BEGIN, or a date that does not format, gives the trace BEGIN, ROLLBACK, release and a 500 (no answer if the ROLLBACK throws) |
| CreateIpo.ThrowRollsBack | ipoRoutes.js:314-317 | a throw in the `try` issues ROLLBACK and answers 500 unless the ROLLBACK itself throws |
| CreateIpo.AllOrNothing | ipoRoutes.js:256-320 | either both rows become durable, the ipos row first, or neither does; both do exactly when the answer is 201 |
| CreateIpo.EarlyExitNotDurable | ipoRoutes.js:258-287 | a failing BEGIN, a falsy required field or an invalid date makes nothing durable |
| CreateIpo.CommittedBothDurable | ipoRoutes.js:300-313 | when every statement succeeds, exactly the two inserts become durable, in order |
| CreateIpo.ReplayCommitted | ipoRoutes.js:300-319 | BEGIN, the two inserts, COMMIT and release, all succeeding, make exactly the two inserts durable, in order |
| CreateIpo.AbortedNotDurable | ipoRoutes.js:300-317 | a failing INSERT or COMMIT leaves nothing durable |
| CreateIpo.AbortedTryBlock | ipoRoutes.js:300-313 | when an INSERT or the COMMIT fails, the `try` block issues BEGIN, the statements up to and including the failing one, and throws |
| CreateIpo.AbortedInsertsNotDurable | ipoRoutes.js:300-319 | after BEGIN, a failing statement followed by ROLLBACK and release leaves nothing durable |
| CreateIpo.NothingDurableAfterAbort | ipoRoutes.js:314-320 | releasing, with or without a ROLLBACK first, makes nothing durable when nothing was |
| CreateIpo.ReplayRollbackRelease | ipoRoutes.js:315-319 | ROLLBACK then release makes nothing durable when nothing was |
| CreateIpo.MissingFieldLeavesTransactionOpen | ipoRoutes.js:258-282 | the 400 answer returns the client to the pool inside an open transaction; what the next request on that client sees is not modelled |
| UserRoutes.AllDigits | ipoRoutes.js:52 | a string passes exactly when every character is an ASCII digit |
| UserRoutes.ValidUserId | ipoRoutes.js:52 | `^\d+$` accepts exactly the non-empty all-digit strings |
| UserRoutes.DecimalIdAccepted | ipoRoutes.js:51-52 | every non-negative integer written in decimal passes the validator |
| UserRoutes.GetUserById | ipoRoutes.js:47-68 | 400 exactly for an invalid id; otherwise 500 when the query throws, 404 for no rows, and the first row otherwise |
| UserRoutes.InvalidIdSkipsDatabase | ipoRoutes.js:52-54 | an id with a non-digit is rejected with 400 whatever the database holds |
| UserRoutes.Register | ipoRoutes.js:135-169 | 400 exactly when a stored user shares the email or the phone number (NULL matches nothing); 201 exactly when the lookup, hash and insert succeed, storing the request's fields with the hash in place of the password; the table changes only on 201 |
| UserRoutes.RegisterPreservesUnique | ipoRoutes.js:140-147 | a registration keeps emails and phone numbers unique in the table |
| UserRoutes.RegisterAllPreservesUnique | ipoRoutes.js:140-166 | any sequence of registrations, with any failures, keeps emails and phone numbers unique |
| UserRoutes.MissingContactNeverClashes | ipoRoutes.js:140-144 | a request without email and phone number is never refused as a duplicate |
| UserRoutes.WithEmail | ipoRoutes.js:177 | the lookup holds only stored users with that email, and is empty exactly when there are none |
| UserRoutes.Login | ipoRoutes.js:172-219 | an unknown email and a wrong password get the same 401; 200 exactly when the password matches the first user with that email and the token is signed; the session cookie carries the token signed over that user's id and role, and the body omits the hash |
| UserRoutes.UniqueEmailAtMostOneRow | ipoRoutes.js:177-182 | with unique emails the lookup finds at most one user |
| UserRoutes.TwoRowsShareEmail | ipoRoutes.js:177 | two rows found by email are two table positions holding the same email |
| UserRoutes.LoginCookieAuthenticates | ipoRoutes.js:182-212 | when signed tokens verify back to their claims, the cookie a successful login sets passes `authenticate`, which calls `next` once and stores as `req.user` the id and role of the first user with that email, the one whose password matched and whose public fields the body returns |
| IpoUpdate.UpdateIpo | ipoRoutes.js:674-703 | 400 "All fields are required" exactly when a field is falsy; 400 invalid format exactly when price_band parses to NaN or issue_size does not parse; otherwise the UPDATE binds the parsed numbers, the type and the id, and the answer is 200, or 500 if it throws; rejected requests issue nothing |
| IpoUpdate.Apply | ipoRoutes.js:692-696 | the UPDATE throws exactly when the path id does not cast to an integer; otherwise it rewrites the terms of the IPO with that integer id and leaves every other IPO and the set of ids unchanged |
| IpoUpdate.SameIdSameUpdate | ipoRoutes.js:692-696 | two path texts that cast to the same integer (`"1"`, `"01"`) update the same row in the same way |
| IpoUpdate.NonIntegerIdIsServerError | ipoRoutes.js:692-701 | a valid body with a path id that is not an integer reaches the UPDATE, which throws, and the answer is 500 |
| IpoUpdate.MissingIpoStillUpdated | ipoRoutes.js:692-698 | an integer id with no IPO still answers 200 and leaves the table unchanged |
| IpoUpdate.ValidationIgnoresDatabase | ipoRoutes.js:680-690 | a request rejected with 400 is rejected the same way whatever the database does |
| DummyRoutes.FindOr404 | server/ipoRoutes.js:145-146 | the first matching record, or 404 with the route's message exactly when nothing matches |
| DummyRoutes.FilterOr404 | server/ipoRoutes.js:120-121 | exactly the matching records, in their order in the data, or 404 exactly when there are none |
| DummyRoutes.LooseEqString | server/ipoRoutes.js:114-151 | `v == s` against a route parameter: undefined and null equal nothing; a number equals the parameter exactly when the parameter converts to that number, and NaN equals nothing; a string compares exactly; when the parameter converts to NaN only the identical string or a plain object's string form can match |
| DummyRoutes.UserByUserId | server/ipoRoutes.js:113-116 | a found user is one of the constant users |
| DummyRoutes.UserByUserIdAlwaysNotFound | server/ipoRoutes.js:113-116 | every user id answers 404 "User not found": the records have no `user_id`, and undefined equals no string |
| DummyRoutes.TransactionsOfUser | server/ipoRoutes.js:119-122 | exactly the transactions whose user_id loosely equals the parameter, in data order, or 404 "No transactions found" when none does |
| DummyRoutes.WatchlistOfUser | server/ipoRoutes.js:137-140 | exactly the watchlist entries whose user_id loosely equals the parameter, in data order, or 404 "No watchlist found" |
| DummyRoutes.UserRecordsInOrder | server/ipoRoutes.js:120-138 | the transactions and the watchlist entries found sit at strictly increasing positions of their arrays |
| DummyRoutes.IpoByName | server/ipoRoutes.js:131-134 | the first IPO whose lowercased company equals the lowercased parameter, or 404 exactly when there is none |
| DummyRoutes.IpoById | server/ipoRoutes.js:150-153 | the first IPO whose id loosely equals the parameter, or 404 exactly when there is none |
| DummyRoutes.IpoMarket | server/ipoRoutes.js:144-147 | a miss answers 404 "IPO not found" |
| DummyRoutes.MarketFollowsIdLookup | server/ipoRoutes.js:144-153 | the market route answers exactly when the id route does, with that IPO's `market_data` |
| DummyRoutes.IpoByIdFindsTheMatch | server/ipoRoutes.js:13-83 | IPO ids are distinct, so a matching id finds that very IPO |
| DummyRoutes.UserOneTransactions | server/ipoRoutes.js:92-95 | when "1" converts to 1, the transactions of user 1 are exactly the first transaction (the one with `user_id: 1`) |
| DummyRoutes.UserOneWatchlist | server/ipoRoutes.js:97-100 | when "1" converts to 1, the watchlist of user 1 is exactly the first entry (the one with `user_id: 1`) |

## Left out

- SearchQuery.BlankNameMatchesAll: states only the bound pattern. The `EXISTS ... ILIKE`
  subquery runs in SQL, so a company with a NULL name, or an IPO with no company row, is
  not matched even by `%%`.
- CreateIpo.Step: a BEGIN inside an open transaction starts afresh, and a failed statement
  leaves the session unchanged, where PostgreSQL keeps the transaction and marks it aborted.
  The traces of one request never reach either case, so the state a later request on a
  released client finds is not modelled.
- DummyRoutes.LooseEqString: an array on the left compares as a plain object would, not
  through the `join` of its elements; no route compares an array, since the compared
  fields are numbers or missing.
- SQL execution: every query is a parameter that returns rows or throws. The `CASE` that
  `/upcomingipos` computes runs in SQL and is not modelled.
- Crypto and cookies: bcrypt hashing and comparison and JWT signing and verification are
  parameters. Cookie options (httpOnly, secure, sameSite, maxAge) are not modelled.
- Dates: `new Date(...)`, `toISOString`, date-fns `format` and `new Date()` are parameters
  or plain integers. The dashboard's instants are integer milliseconds, or an invalid date.
- Number parsing: `parseFloat`, `parseInt`, `Number(string)`, `toLowerCase` and
  PostgreSQL's cast of a path id to an integer column are parameters. Number precision
  beyond 2^53 and negative zero are not modelled.
- SQL whitespace: the search fragments are kept with their whitespace compacted. The
  placeholder numbers and the order of fragments are kept exactly.
- Routing: Express wiring and route order are not modelled. `/ipos/search` is declared after
  `/ipos/:id`, so Express never reaches it. Its builder is modelled as a function. The
  `authenticate` guard on `/users`, `/ipos/search`, `PUT /ipo/:id` and `DELETE /ipo/:id` is
  modelled once, as `Auth.Authenticate`, and not composed with each route.
- Single-query routes: `/watchlists/:user_id`, `/transactions/:user_id`, `/notifications`
  and `/upcomingipos` run one query and answer with its rows, or 500 when it throws.
  `/ipos/:id` answers with the row found; `/ipo-details/:id` answers with that row's
  `ipo_info` converted from Markdown to HTML by a library call; `PUT /ipo/:id` answers with
  a message and the updated row. `PUT /users/:id` and `DELETE /ipo/:id` answer with a
  confirmation message only, and `/iposdlt/:id` with a status, a message and the path id.
  Each of these answers 404 when its query finds no row and 500 when a query throws. None
  of these has further logic.
- `/protected-route` runs no query. Behind `authenticate` it answers with the stored
  `req.user`, which is what `Auth.Authenticate` and `UserRoutes.LoginCookieAuthenticates`
  describe.
- Constant routes: `/test`, `/subscriptions`, `/dashboard`, `/ipo-allotments`, and the
  in-memory `/test`, `/users` and `/ipos` each answer with a constant.
- Markdown: rendering with `marked` in `/ipo-details/:id` is a library call and is not
  modelled.
- Infrastructure: the connection pool, request concurrency, logging, `server.js`,
  `server/server.js` and the React components are not modelled.
- Auth.Authenticate: a throw from `next()` itself would reach the `catch` and add a 400.
  The model takes `next` as returning normally.
- UserRoutes.Login: `rows[0]` of an unordered `SELECT` is modelled as the first match in
  table order. Under unique emails it is the only match (`UniqueEmailAtMostOneRow`).
- UserRoutes.Register: email and phone number are strings or absent. Other JSON types in
  those fields are not modelled, and the database assigns the new id (a parameter).
- DummyRoutes.IpoMarket: its contract states only the miss. The found case is stated
  against the id lookup by `MarketFollowsIdLookup`.
- DummyRoutes.UserByUserId: its contract states only where a found user comes from. That no
  user is ever found is `UserByUserIdAlwaysNotFound`.

=== FILE: auth.dfy ===
/** The `authenticate` middleware: gate a protected route on the signed session token
    carried in the `authToken` cookie. The token verifier (signature, expiry, secret) is a
    parameter: `verify(token)` is `Some(claims)` when it accepts and `None` when it throws. */
module Auth {
  import opened Wrappers
  import opened JsValues

  const CookieName := "authToken"
  const NoTokenMessage := "Access Denied. No token provided."
  const InvalidTokenMessage := "Invalid Token"

  /** A JSON response written by the middleware. */
  datatype Response = Response(status: int, message: string)

  /** Everything the middleware does to one request: the responses it writes, how often it
      calls `next`, and what it stores in `req.user`. */
  datatype Effects<C> = Effects(responses: seq<Response>, nextCalls: nat, user: Option<C>)

  /** `req.cookies.authToken`; a missing cookie reads as `undefined`. */
  function TokenOf(cookies: map<string, JsVal>): JsVal {
    if CookieName in cookies then cookies[CookieName] else Undefined
  }

  function Authenticate<C>(cookies: map<string, JsVal>, verify: JsVal -> Option<C>): (e: Effects<C>)
    // No token: 401, the verifier is left alone and the request stops here.
    ensures !Truthy(TokenOf(cookies)) ==>
              e == Effects([Response(401, NoTokenMessage)], 0, None)
    // Token the verifier rejects: 400 and nothing stored.
    ensures Truthy(TokenOf(cookies)) && verify(TokenOf(cookies)).None? ==>
              e == Effects([Response(400, InvalidTokenMessage)], 0, None)
    // Token the verifier accepts: the decoded claims are stored and `next` runs once.
    ensures Truthy(TokenOf(cookies)) && verify(TokenOf(cookies)).Some? ==>
              e == Effects([], 1, verify(TokenOf(cookies)))
    // Exactly one of 401, 400 or `next` happens.
    ensures |e.responses| + e.nextCalls == 1
    ensures e.user.Some? <==> e.nextCalls == 1
  {
    var token := TokenOf(cookies);
    if !Truthy(token) then
      Effects([Response(401, NoTokenMessage)], 0, None)
    else
      match verify(token)
      case None => Effects([Response(400, InvalidTokenMessage)], 0, None)
      case Some(decoded) => Effects([], 1, Some(decoded))
  }

  /** Only the `authToken` cookie is consulted: requests that agree on it are treated alike. */
  lemma OnlyAuthTokenConsulted<C>(c1: map<string, JsVal>, c2: map<string, JsVal>,
                                   verify: JsVal -> Option<C>)
    requires TokenOf(c1) == TokenOf(c2)
    ensures Authenticate(c1, verify) == Authenticate(c2, verify)
  {
  }

  /** Without a token the verifier is not consulted: any two verifiers give the same effects. */
  lemma NoTokenIgnoresVerifier<C>(cookies: map<string, JsVal>,
                                  v1: JsVal -> Option<C>, v2: JsVal -> Option<C>)
    requires !Truthy(TokenOf(cookies))
    ensures Authenticate(cookies, v1) == Authenticate(cookies, v2)
    ensures Authenticate(cookies, v1).responses[0].status == 401
  {
  }
}

=== FILE: collections.dfy ===
/** `Array.prototype.filter` and `Array.prototype.find` over immutable sequences. */
module Collections {
  import opened Wrappers

  /** The elements of `s` that satisfy `p`, in their original order. */
  function Filter<T>(s: seq<T>, p: T -> bool): (r: seq<T>)
    ensures |r| <= |s|
    ensures forall x :: x in r ==> x in s && p(x)
  {
    if |s| == 0 then []
    else Filter(s[..|s| - 1], p) + (if p(s[|s| - 1]) then [s[|s| - 1]] else [])
  }

  /** Filtering after appending one element. */
  lemma FilterSnoc<T>(s: seq<T>, x: T, p: T -> bool)
    ensures Filter(s + [x], p) == Filter(s, p) + (if p(x) then [x] else [])
  {
    assert (s + [x])[..|s + [x]| - 1] == s;
  }

  /** The positions of `s` that `Filter` keeps. */
  function KeptPositions<T>(s: seq<T>, p: T -> bool): seq<nat> {
    if |s| == 0 then []
    else KeptPositions(s[..|s| - 1], p) + (if p(s[|s| - 1]) then [|s| - 1] else [])
  }

  /** The kept positions are strictly increasing and hold the kept elements in order. */
  lemma {:induction false} KeptPositionsOrdered<T>(s: seq<T>, p: T -> bool)
    ensures |KeptPositions(s, p)| == |Filter(s, p)|
    ensures forall m :: 0 <= m < |KeptPositions(s, p)| ==>
              KeptPositions(s, p)[m] < |s| && Filter(s, p)[m] == s[KeptPositions(s, p)[m]]
    ensures forall m, n :: 0 <= m < n < |KeptPositions(s, p)| ==>
              KeptPositions(s, p)[m] < KeptPositions(s, p)[n]
    decreases |s|
  {
    if |s| > 0 {
      var n := |s| - 1;
      KeptPositionsOrdered(s[..n], p);
      var init := KeptPositions(s[..n], p);
      var idx := KeptPositions(s, p);
      assert idx == init + (if p(s[n]) then [n] else []);
      assert Filter(s, p) == Filter(s[..n], p) + (if p(s[n]) then [s[n]] else []);
      assert forall m :: 0 <= m < |init| ==> idx[m] == init[m] && s[..n][init[m]] == s[init[m]];
    }
  }

  /** A position is kept exactly when its element satisfies `p`. */
  lemma {:induction false} KeptPositionsExact<T>(s: seq<T>, p: T -> bool, i: nat)
    requires i < |s|
    ensures i in KeptPositions(s, p) <==> p(s[i])
    decreases |s|
  {
    var n := |s| - 1;
    var init := KeptPositions(s[..n], p);
    assert KeptPositions(s, p) == init + (if p(s[n]) then [n] else []);
    if i < n {
      KeptPositionsExact(s[..n], p, i);
      assert s[..n][i] == s[i];
    } else {
      KeptPositionsOrdered(s[..n], p);
      assert i !in init;
    }
  }

  /** Every element that satisfies `p` survives the filter. */
  lemma {:induction false} FilterKeepsMatches<T>(s: seq<T>, p: T -> bool, x: T)
    requires x in s && p(x)
    ensures x in Filter(s, p)
  {
    var i :| 0 <= i < |s| && s[i] == x;
    var idx := KeptPositions(s, p);
    KeptPositionsExact(s, p, i);
    KeptPositionsOrdered(s, p);
    var m :| 0 <= m < |idx| && idx[m] == i;
    assert Filter(s, p)[m] == x;
  }

  /** The filter is empty exactly when no element satisfies `p`. */
  lemma FilterEmptyIff<T>(s: seq<T>, p: T -> bool)
    ensures Filter(s, p) == [] <==> forall x :: x in s ==> !p(x)
  {
    if exists x :: x in s && p(x) {
      var x :| x in s && p(x);
      FilterKeepsMatches(s, p, x);
    }
  }

  /** The position of the first element of `s` that satisfies `p`. */
  function FindFirst<T>(s: seq<T>, p: T -> bool): (r: Option<nat>)
    ensures r.Some? ==> r.value < |s| && p(s[r.value])
    ensures r.Some? ==> forall k :: 0 <= k < r.value ==> !p(s[k])
    ensures r.None? <==> forall k :: 0 <= k < |s| ==> !p(s[k])
  {
    if |s| == 0 then None
    else if p(s[0]) then Some(0)
    else
      match FindFirst(s[1..], p)
      case None => None
      case Some(i) => Some(i + 1)
  }

  /** `find` returns `undefined` exactly when `filter` returns an empty array. */
  lemma FindNoneIffFilterEmpty<T>(s: seq<T>, p: T -> bool)
    ensures FindFirst(s, p).None? <==> Filter(s, p) == []
  {
    if FindFirst(s, p).Some? {
      FilterKeepsMatches(s, p, s[FindFirst(s, p).value]);
    }
  }
}

=== FILE: create_ipo.dfy ===
/** `POST /ipo`: the only multi-statement transaction. The handler takes a pooled client,
    issues BEGIN, checks the required fields, formats the three dates, inserts into `ipos`
    and `ipo_details`, and commits; a throw inside the `try` issues ROLLBACK and answers 500,
    and `finally` releases the client.

    The model returns the handler's trace of client calls and its reply. The database and
    the date formatter are parameters of an `Env`: `connects` says whether `pool.connect()`
    resolves, `fails(stmt)` whether `client.query(stmt)` throws, and `formatDate(x)` is
    `format(new Date(x), 'yyyy-MM-dd HH:mm:ss')` (None when it throws on an invalid date).

    Two behaviours of the handler are kept as they are: BEGIN precedes validation, so the
    400 answer leaves the transaction open on the released client; and the response's
    `ipo_id` reads `.id` from a row that only has `company_id`, so it is always undefined. */
module CreateIpo {
  import opened Wrappers
  import opened JsValues

  /** The destructured request body. */
  datatype IpoPayload = IpoPayload(
    companyId: JsVal,
    apiSourceId: JsVal,
    pricePerIpo: JsVal,
    priceBand: JsVal,
    issueSize: JsVal,
    issueType: JsVal,
    openingDate: JsVal,
    closingDate: JsVal,
    createdAt: JsVal,
    status: JsVal,
    listingPrice: JsVal,
    listingGain: JsVal,
    cmp: JsVal,
    currentReturn: JsVal,
    rhp: JsVal,
    drhp: JsVal)

  /** The statements the handler sends over its client. */
  datatype Stmt =
    | Begin
    | InsertIpo(ipoValues: seq<JsVal>)
    | InsertDetails(detailValues: seq<JsVal>)
    | Commit
    | Rollback

  /** One call on the pooled client. */
  datatype Event = Query(stmt: Stmt) | Release

  datatype Reply =
    | Created(ipoId: JsVal)   // 201 "IPO created successfully"
    | MissingFields           // 400 "Missing required fields"
    | ServerError             // 500 with the error's message
    | NoReply                 // the promise rejects before any response is written

  datatype Env = Env(connects: bool, fails: Stmt -> bool, formatDate: JsVal -> Option<string>)

  datatype Run = Run(events: seq<Event>, reply: Reply)

  /** How the `try` block ended. */
  datatype TryOutcome = Returned(reply: Reply) | Threw

  /** `!company_id || !api_source_id || !price_per_ipo || !issue_size || !opening_date || !closing_date`
      fails. */
  predicate RequiredPresent(p: IpoPayload) {
    && Truthy(p.companyId) && Truthy(p.apiSourceId) && Truthy(p.pricePerIpo)
    && Truthy(p.issueSize) && Truthy(p.openingDate) && Truthy(p.closingDate)
  }

  /** The formatted opening, closing and creation dates; `created_at` is formatted only when
      truthy and is `null` otherwise. */
  datatype Dates = Dates(opening: string, closing: string, created: JsVal)

  function FormatDates(p: IpoPayload, formatDate: JsVal -> Option<string>): (r: Option<Dates>)
    // The formatting throws exactly when one of the dates it formats is invalid; a falsy
    // `created_at` is never formatted, so it never throws.
    ensures r.None? <==>
              || formatDate(p.openingDate).None? || formatDate(p.closingDate).None?
              || (Truthy(p.createdAt) && formatDate(p.createdAt).None?)
    ensures r.Some? ==>
              && r.value.opening == formatDate(p.openingDate).value
              && r.value.closing == formatDate(p.closingDate).value
              && (Truthy(p.createdAt) ==> r.value.created == Str(formatDate(p.createdAt).value))
              && (!Truthy(p.createdAt) ==> r.value.created == Null)
  {
    var opening :- formatDate(p.openingDate);
    var closing :- formatDate(p.closingDate);
    if Truthy(p.createdAt) then
      var created :- formatDate(p.createdAt);
      Some(Dates(opening, closing, Str(created)))
    else
      Some(Dates(opening, closing, Null))
  }

  /** `$1 .. $10` of the `ipos` insert. */
  function IpoValues(p: IpoPayload, d: Dates): seq<JsVal> {
    [p.companyId, p.apiSourceId, p.pricePerIpo, p.priceBand, p.issueSize, p.issueType,
     Str(d.opening), Str(d.closing), d.created, p.status]
  }

  /** `$1 .. $6` of the `ipo_details` insert. */
  function DetailValues(p: IpoPayload): seq<JsVal> {
    [p.listingPrice, p.listingGain, p.cmp, p.currentReturn, p.rhp, p.drhp]
  }

  /** The row of `INSERT ... RETURNING company_id`. */
  datatype ReturnedRow = ReturnedRow(companyId: JsVal)

  /** `ipoResult.rows[0].id`: the returned row has no `id` column. */
  function IdOf(row: ReturnedRow): JsVal {
    Undefined
  }

  /** The `try` block: the calls it makes and how it ends. */
  function TryBlock(p: IpoPayload, env: Env): (r: (seq<Event>, TryOutcome))
    ensures |r.0| >= 1 && r.0[0] == Query(Begin)
    ensures Release !in r.0
    ensures r.1.Returned? ==> r.1.reply == MissingFields || r.1.reply == Created(Undefined)
    // A failing BEGIN, and a date that does not format, throw straight after the BEGIN.
    ensures env.fails(Begin) ==> r == ([Query(Begin)], Threw)
    ensures !env.fails(Begin) && RequiredPresent(p) && FormatDates(p, env.formatDate).None? ==>
              r == ([Query(Begin)], Threw)
  {
    if env.fails(Begin) then ([Query(Begin)], Threw)
    else if !RequiredPresent(p) then ([Query(Begin)], Returned(MissingFields))
    else
      match FormatDates(p, env.formatDate)
      case None => ([Query(Begin)], Threw)
      case Some(d) =>
        var s1 := InsertIpo(IpoValues(p, d));
        var s2 := InsertDetails(DetailValues(p));
        if env.fails(s1) then ([Query(Begin), Query(s1)], Threw)
        else if env.fails(s2) then ([Query(Begin), Query(s1), Query(s2)], Threw)
        else if env.fails(Commit) then ([Query(Begin), Query(s1), Query(s2), Query(Commit)], Threw)
        else ([Query(Begin), Query(s1), Query(s2), Query(Commit)],
              Returned(Created(IdOf(ReturnedRow(p.companyId)))))
  }

  /** The whole handler: connect, `try`, `catch` (ROLLBACK, 500), `finally` (release). */
  function CreateIpo(p: IpoPayload, env: Env): (run: Run)
    ensures !env.connects ==> run == Run([], NoReply)
    // The client is released exactly once, as the last call, on every path.
    ensures env.connects ==> |run.events| >= 2 && run.events[|run.events| - 1] == Release
                             && multiset(run.events)[Release] == 1
    ensures env.connects ==> run.events[0] == Query(Begin)
    // A 500 always follows a ROLLBACK issued just before the release.
    ensures run.reply == ServerError ==> run.events[|run.events| - 2] == Query(Rollback)
    ensures run.reply.Created? ==> run.reply.ipoId == Undefined
  {
    if !env.connects then Run([], NoReply)
    else
      var (events, outcome) := TryBlock(p, env);
      assert multiset(events + [Release])[Release] == 1;
      assert multiset(events + [Query(Rollback), Release])[Release] == 1;
      if outcome.Returned? then Run(events + [Release], outcome.reply)
      else if env.fails(Rollback) then Run(events + [Query(Rollback), Release], NoReply)
      else Run(events + [Query(Rollback), Release], ServerError)
  }

  predicate IsInsert(e: Event) {
    e.Query? && (e.stmt.InsertIpo? || e.stmt.InsertDetails?)
  }

  /** A falsy required field: no INSERT is ever issued; once BEGIN has succeeded the answer is
      400 and the client goes back to the pool with neither COMMIT nor ROLLBACK. */
  lemma MissingFieldNoInsert(p: IpoPayload, env: Env)
    requires !RequiredPresent(p)
    ensures forall e :: e in CreateIpo(p, env).events ==> !IsInsert(e)
    ensures env.connects && !env.fails(Begin) ==>
              CreateIpo(p, env) == Run([Query(Begin), Release], MissingFields)
  {
  }

  /** All required fields present, all dates valid and no statement failing: the trace is
      BEGIN, both inserts with the request's values, COMMIT, release, and the answer is 201
      with an undefined `ipo_id`. */
  lemma SuccessTrace(p: IpoPayload, env: Env)
    requires env.connects && RequiredPresent(p) && FormatDates(p, env.formatDate).Some?
    requires var d := FormatDates(p, env.formatDate).value;
             !env.fails(Begin) && !env.fails(InsertIpo(IpoValues(p, d)))
             && !env.fails(InsertDetails(DetailValues(p))) && !env.fails(Commit)
    ensures var d := FormatDates(p, env.formatDate).value;
            CreateIpo(p, env)
            == Run([Query(Begin), Query(InsertIpo(IpoValues(p, d))), Query(InsertDetails(DetailValues(p))),
                    Query(Commit), Release],
                   Created(Undefined))
  {
  }

  /** The values bound to the `ipos` insert are the request's, with the dates formatted. */
  lemma InsertBindsRequest(p: IpoPayload, d: Dates)
    ensures |IpoValues(p, d)| == 10
    ensures IpoValues(p, d)[0] == p.companyId && IpoValues(p, d)[1] == p.apiSourceId
    ensures IpoValues(p, d)[2] == p.pricePerIpo && IpoValues(p, d)[4] == p.issueSize
    ensures IpoValues(p, d)[6] == Str(d.opening) && IpoValues(p, d)[7] == Str(d.closing)
  {
  }

  /** A throw after a successful connect and BEGIN-or-later: ROLLBACK is issued and, unless it
      throws itself, the answer is 500. */
  lemma ThrowRollsBack(p: IpoPayload, env: Env)
    requires env.connects
    requires TryBlock(p, env).1.Threw?
    ensures Query(Rollback) in CreateIpo(p, env).events
    ensures CreateIpo(p, env).reply == (if env.fails(Rollback) then NoReply else ServerError)
  {
    var run := CreateIpo(p, env);
    assert run.events[|run.events| - 2] == Query(Rollback);
  }

  /** A failing BEGIN, or required fields present with an opening, closing or truthy creation
      date that does not format: the `catch` runs, so the trace is BEGIN, ROLLBACK, release and
      the answer is 500, or no answer when the ROLLBACK throws too. */
  lemma EarlyThrowRollsBack(p: IpoPayload, env: Env)
    requires env.connects
    requires env.fails(Begin) || (RequiredPresent(p) && FormatDates(p, env.formatDate).None?)
    ensures CreateIpo(p, env)
            == Run([Query(Begin), Query(Rollback), Release],
                   if env.fails(Rollback) then NoReply else ServerError)
  {
    assert [Query(Begin)] + [Query(Rollback), Release] == [Query(Begin), Query(Rollback), Release];
  }

  // ---------------------------------------------------------------------------------------
  // What the trace does to the database

  /** The client's session: whether a transaction is open, the statements it would commit,
      and the statements that have taken durable effect. */
  datatype Session = Session(inTransaction: bool, pending: seq<Stmt>, durable: seq<Stmt>)

  /* The session semantics is exact for the traces of a single request, and simpler than
     PostgreSQL in two places those traces never reach: a BEGIN inside an open transaction
     starts afresh here, where PostgreSQL only warns and keeps the transaction; and a failed
     statement leaves the session unchanged here, where PostgreSQL marks the transaction
     aborted so that a later COMMIT rolls back. In a handler trace a BEGIN is always the first
     statement, and every failure is followed by ROLLBACK. */

  function Step(s: Session, e: Event, fails: Stmt -> bool): Session {
    match e
    case Release => s
    case Query(stmt) =>
      if fails(stmt) then
        // A failed COMMIT ends the transaction without effect; other failures change nothing.
        if stmt == Commit then Session(false, [], s.durable) else s
      else
        match stmt
        case Begin => Session(true, [], s.durable)
        case InsertIpo(_) =>
          if s.inTransaction then s.(pending := s.pending + [stmt]) else s.(durable := s.durable + [stmt])
        case InsertDetails(_) =>
          if s.inTransaction then s.(pending := s.pending + [stmt]) else s.(durable := s.durable + [stmt])
        case Commit => Session(false, [], s.durable + s.pending)
        case Rollback => Session(false, [], s.durable)
  }

  function Replay(s: Session, events: seq<Event>, fails: Stmt -> bool): Session
    decreases |events|
  {
    if |events| == 0 then s else Replay(Step(s, events[0], fails), events[1..], fails)
  }

  const Idle := Session(false, [], [])

  /** Replay consumes a trace from the front. */
  lemma ReplayCons(s: Session, e: Event, es: seq<Event>, fails: Stmt -> bool)
    ensures Replay(s, [e] + es, fails) == Replay(Step(s, e, fails), es, fails)
  {
    assert ([e] + es)[1..] == es;
  }

  lemma ReplayLast(s: Session, e: Event, fails: Stmt -> bool)
    ensures Replay(s, [e], fails) == Step(s, e, fails)
  {
    assert [e][1..] == [];
  }

  /** Atomicity: the handler makes both rows durable or neither, and both exactly when it
      answers 201. */
  lemma AllOrNothing(p: IpoPayload, env: Env)
    ensures var run := CreateIpo(p, env);
            var durable := Replay(Idle, run.events, env.fails).durable;
            && (durable == [] || (|durable| == 2 && durable[0].InsertIpo? && durable[1].InsertDetails?))
            && (durable != [] <==> run.reply.Created?)
  {
    if !env.connects {
    } else if env.fails(Begin) || !RequiredPresent(p) || FormatDates(p, env.formatDate).None? {
      EarlyExitNotDurable(p, env);
    } else {
      var d := FormatDates(p, env.formatDate).value;
      var s1, s2 := InsertIpo(IpoValues(p, d)), InsertDetails(DetailValues(p));
      if !env.fails(s1) && !env.fails(s2) && !env.fails(Commit) {
        CommittedBothDurable(p, env);
      } else {
        AbortedNotDurable(p, env);
      }
    }
  }

  /** A failing BEGIN, a falsy required field or an invalid date: nothing becomes durable. */
  lemma EarlyExitNotDurable(p: IpoPayload, env: Env)
    requires env.connects
    requires env.fails(Begin) || !RequiredPresent(p) || FormatDates(p, env.formatDate).None?
    ensures Replay(Idle, CreateIpo(p, env).events, env.fails).durable == []
    ensures !CreateIpo(p, env).reply.Created?
  {
    var f := env.fails;
    var tail := if TryBlock(p, env).1.Returned? then [Release] else [Query(Rollback), Release];
    assert TryBlock(p, env).0 == [Query(Begin)];
    assert CreateIpo(p, env).events == [Query(Begin)] + tail;
    ReplayCons(Idle, Query(Begin), tail, f);
    NothingDurableAfterAbort(Step(Idle, Query(Begin), f), tail, f);
  }

  /** Every statement succeeding: exactly the two inserts become durable, in order. */
  lemma CommittedBothDurable(p: IpoPayload, env: Env)
    requires env.connects && !env.fails(Begin) && RequiredPresent(p)
    requires FormatDates(p, env.formatDate).Some?
    requires var d := FormatDates(p, env.formatDate).value;
             && !env.fails(InsertIpo(IpoValues(p, d))) && !env.fails(InsertDetails(DetailValues(p)))
             && !env.fails(Commit)
    ensures var d := FormatDates(p, env.formatDate).value;
            Replay(Idle, CreateIpo(p, env).events, env.fails).durable
            == [InsertIpo(IpoValues(p, d)), InsertDetails(DetailValues(p))]
    ensures CreateIpo(p, env).reply.Created?
  {
    var d := FormatDates(p, env.formatDate).value;
    SuccessTrace(p, env);
    ReplayCommitted(InsertIpo(IpoValues(p, d)), InsertDetails(DetailValues(p)),
                    CreateIpo(p, env).events, env.fails);
  }

  /** BEGIN, two successful inserts, a successful COMMIT and release make both inserts
      durable, in order. */
  lemma ReplayCommitted(s1: Stmt, s2: Stmt, events: seq<Event>, f: Stmt -> bool)
    requires s1.InsertIpo? && s2.InsertDetails?
    requires !f(Begin) && !f(s1) && !f(s2) && !f(Commit)
    requires events == [Query(Begin), Query(s1), Query(s2), Query(Commit), Release]
    ensures Replay(Idle, events, f).durable == [s1, s2]
  {
    var b, q1, q2, c, rel := Query(Begin), Query(s1), Query(s2), Query(Commit), Release;
    assert events == [b] + ([q1] + ([q2] + ([c] + [rel])));
    var t0 := Step(Idle, b, f);
    assert t0 == Session(true, [], []);
    var t1 := Step(t0, q1, f);
    assert t1 == Session(true, [s1], []);
    var t2 := Step(t1, q2, f);
    assert t2 == Session(true, [s1, s2], []);
    var t3 := Step(t2, c, f);
    assert t3 == Session(false, [], [s1, s2]);
    ReplayCons(Idle, b, [q1] + ([q2] + ([c] + [rel])), f);
    ReplayCons(t0, q1, [q2] + ([c] + [rel]), f);
    ReplayCons(t1, q2, [c] + [rel], f);
    ReplayCons(t2, c, [rel], f);
    ReplayLast(t3, rel, f);
  }

  /** A failing INSERT or COMMIT: the ROLLBACK leaves nothing durable. */
  lemma AbortedNotDurable(p: IpoPayload, env: Env)
    requires env.connects && !env.fails(Begin) && RequiredPresent(p)
    requires FormatDates(p, env.formatDate).Some?
    requires var d := FormatDates(p, env.formatDate).value;
             || env.fails(InsertIpo(IpoValues(p, d))) || env.fails(InsertDetails(DetailValues(p)))
             || env.fails(Commit)
    ensures Replay(Idle, CreateIpo(p, env).events, env.fails).durable == []
    ensures !CreateIpo(p, env).reply.Created?
  {
    var d := FormatDates(p, env.formatDate).value;
    var t := AbortedTryBlock(p, env, d);
    assert CreateIpo(p, env).events == [Query(Begin)] + t + [Query(Rollback), Release];
    AbortedInsertsNotDurable(p, d, env, t, CreateIpo(p, env).events);
  }

  /** The `try` block of a run whose INSERT or COMMIT fails: BEGIN, the statements up to the
      failing one, and a throw. */
  lemma AbortedTryBlock(p: IpoPayload, env: Env, d: Dates) returns (t: seq<Event>)
    requires !env.fails(Begin) && RequiredPresent(p)
    requires FormatDates(p, env.formatDate) == Some(d)
    requires || env.fails(InsertIpo(IpoValues(p, d))) || env.fails(InsertDetails(DetailValues(p)))
             || env.fails(Commit)
    ensures TryBlock(p, env) == ([Query(Begin)] + t, Threw)
    ensures var s1, s2 := Query(InsertIpo(IpoValues(p, d))), Query(InsertDetails(DetailValues(p)));
            || (t == [s1] && env.fails(s1.stmt))
            || (t == [s1, s2] && !env.fails(s1.stmt) && env.fails(s2.stmt))
            || (t == [s1, s2, Query(Commit)] && !env.fails(s1.stmt) && !env.fails(s2.stmt)
                && env.fails(Commit))
  {
    var s1, s2 := Query(InsertIpo(IpoValues(p, d))), Query(InsertDetails(DetailValues(p)));
    if env.fails(s1.stmt) {
      t := [s1];
      assert TryBlock(p, env) == ([Query(Begin), s1], Threw);
      assert [Query(Begin)] + t == [Query(Begin), s1];
    } else if env.fails(s2.stmt) {
      t := [s1, s2];
      assert TryBlock(p, env) == ([Query(Begin), s1, s2], Threw);
      assert [Query(Begin)] + t == [Query(Begin), s1, s2];
    } else {
      t := [s1, s2, Query(Commit)];
      assert TryBlock(p, env) == ([Query(Begin), s1, s2, Query(Commit)], Threw);
      assert [Query(Begin)] + t == [Query(Begin), s1, s2, Query(Commit)];
    }
  }

  /** From a session with nothing durable, releasing (after an optional ROLLBACK) makes
      nothing durable. */
  lemma NothingDurableAfterAbort(s: Session, tail: seq<Event>, fails: Stmt -> bool)
    requires s.durable == [] && s.pending == []
    requires tail == [Release] || tail == [Query(Rollback), Release]
    ensures Replay(s, tail, fails).durable == []
  {
    if tail == [Release] {
      ReplayLast(s, Release, fails);
    } else {
      assert tail == [Query(Rollback)] + [Release];
      ReplayCons(s, Query(Rollback), [Release], fails);
      ReplayLast(Step(s, Query(Rollback), fails), Release, fails);
    }
  }

  /** A failing INSERT or COMMIT after BEGIN leaves nothing durable. */
  lemma AbortedInsertsNotDurable(p: IpoPayload, d: Dates, env: Env, t: seq<Event>, events: seq<Event>)
    requires !env.fails(Begin)
    requires events == [Query(Begin)] + t + [Query(Rollback), Release]
    requires var s1, s2 := Query(InsertIpo(IpoValues(p, d))), Query(InsertDetails(DetailValues(p)));
             || (t == [s1] && env.fails(s1.stmt))
             || (t == [s1, s2] && !env.fails(s1.stmt) && env.fails(s2.stmt))
             || (t == [s1, s2, Query(Commit)] && !env.fails(s1.stmt) && !env.fails(s2.stmt)
                 && env.fails(Commit))
    ensures Replay(Idle, events, env.fails).durable == []
  {
    var f := env.fails;
    assert events == [Query(Begin)] + (t + [Query(Rollback), Release]);
    ReplayCons(Idle, Query(Begin), t + [Query(Rollback), Release], f);
    var s := Step(Idle, Query(Begin), f);
    var tail := [Query(Rollback), Release];
    var s1, s2 := Query(InsertIpo(IpoValues(p, d))), Query(InsertDetails(DetailValues(p)));
    assert s.durable == [] && s.inTransaction;
    if |t| == 1 {
      assert t + tail == [s1] + tail;
      ReplayCons(s, s1, tail, f);
      NothingDurableAfterAbort(s, tail, f);
    } else if |t| == 2 {
      assert t + tail == [s1] + ([s2] + tail);
      ReplayCons(s, s1, [s2] + tail, f);
      var s' := Step(s, s1, f);
      ReplayCons(s', s2, tail, f);
      ReplayRollbackRelease(s', f);
    } else {
      assert t + tail == [s1] + ([s2] + ([Query(Commit)] + tail));
      ReplayCons(s, s1, [s2] + ([Query(Commit)] + tail), f);
      var s' := Step(s, s1, f);
      ReplayCons(s', s2, [Query(Commit)] + tail, f);
      var s'' := Step(s', s2, f);
      ReplayCons(s'', Query(Commit), tail, f);
      NothingDurableAfterAbort(Step(s'', Query(Commit), f), tail, f);
    }
  }

  /** ROLLBACK discards pending statements; a failing one leaves them pending, not durable. */
  lemma ReplayRollbackRelease(s: Session, fails: Stmt -> bool)
    requires s.durable == []
    ensures Replay(s, [Query(Rollback), Release], fails).durable == []
  {
    assert [Query(Rollback), Release] == [Query(Rollback)] + [Release];
    ReplayCons(s, Query(Rollback), [Release], fails);
    ReplayLast(Step(s, Query(Rollback), fails), Release, fails);
  }

  /** The 400 answer leaves a transaction open on the client it returns to the pool. What the
      next request on that client then sees is beyond the session semantics above. */
  lemma MissingFieldLeavesTransactionOpen(p: IpoPayload, env: Env)
    requires env.connects && !env.fails(Begin) && !RequiredPresent(p)
    ensures Replay(Idle, CreateIpo(p, env).events, env.fails).inTransaction
  {
    assert CreateIpo(p, env).events == [Query(Begin)] + [Release];
    ReplayCons(Idle, Query(Begin), [Release], env.fails);
    ReplayLast(Step(Idle, Query(Begin), env.fails), Release, env.fails);
  }
}

=== FILE: dashboard.dfy ===
/** The `GET /ipo-dashboard` categoriser: every row of the dashboard query lands in the
    active, upcoming or past bucket by comparing its opening and closing instants with `now`,
    and is copied into that bucket with only its `status` overwritten. The clock is a
    parameter (`now`, in milliseconds since the epoch).

    Before comparing, the handler logs both dates with `toISOString()`, which throws on an
    invalid date: one such row turns the whole answer into a 500. */
module Dashboard {
  import opened Wrappers
  import opened Collections

  /** The value of `new Date(column)`: a millisecond count (a NULL column gives the epoch),
      or an invalid date (a database `infinity`), which compares as NaN, i.e. false against
      everything. */
  datatype Instant = InvalidDate | At(ms: int)

  /** One row of the dashboard query. */
  datatype IpoRow = IpoRow(
    companyId: int,
    apiSourceId: string,
    pricePerIpo: string,
    totalShares: int,
    openingDate: Instant,
    closingDate: Instant,
    status: string,
    companyName: string,
    logoUrl: string)

  // JavaScript's relational operators on a Date and `now`: false whenever the date is invalid.
  predicate AtOrBefore(t: Instant, now: int) { t.At? && t.ms <= now }
  predicate AtOrAfter(t: Instant, now: int) { t.At? && t.ms >= now }
  predicate Later(t: Instant, now: int) { t.At? && t.ms > now }

  datatype Bucket = Active | Upcoming | Past

  /** The branch of the handler's `if` that a row takes. */
  function Classify(row: IpoRow, now: int): (k: Bucket)
    ensures k == Active <==>
              row.openingDate.At? && row.closingDate.At?
              && row.openingDate.ms <= now <= row.closingDate.ms
    // Upcoming needs no "and not active": an IPO that opens later cannot be open now.
    ensures k == Upcoming <==> row.openingDate.At? && now < row.openingDate.ms
    // Past: closed already, opened with an unusable closing date, or an invalid opening date.
    ensures k == Past <==>
              || row.openingDate.InvalidDate?
              || (row.openingDate.ms <= now && (row.closingDate.InvalidDate? || row.closingDate.ms < now))
  {
    if AtOrBefore(row.openingDate, now) && AtOrAfter(row.closingDate, now) then Active
    else if Later(row.openingDate, now) then Upcoming
    else Past
  }

  /** The status string written into a row of each bucket. */
  function Label(k: Bucket): string {
    match k
    case Active => "Active"
    case Upcoming => "Upcoming"
    case Past => "PastIPO"
  }

  function InBucket(now: int, k: Bucket): IpoRow -> bool {
    row => Classify(row, now) == k
  }

  /** `{ ...row, status: label }` for every row. */
  function Relabel(rows: seq<IpoRow>, tag: string): (r: seq<IpoRow>)
    ensures |r| == |rows|
    ensures forall i :: 0 <= i < |rows| ==> r[i] == rows[i].(status := tag)
  {
    seq(|rows|, i requires 0 <= i < |rows| => rows[i].(status := tag))
  }

  /** The reference definition of a bucket: the rows of that class, in query order, relabelled. */
  function BucketRows(rows: seq<IpoRow>, now: int, k: Bucket): seq<IpoRow> {
    Relabel(Filter(rows, InBucket(now, k)), Label(k))
  }

  lemma BucketRowsSnoc(rows: seq<IpoRow>, row: IpoRow, now: int, k: Bucket)
    ensures BucketRows(rows + [row], now, k)
            == BucketRows(rows, now, k)
               + (if Classify(row, now) == k then [row.(status := Label(k))] else [])
  {
    FilterSnoc(rows, row, InBucket(now, k));
  }

  /** `toISOString()` succeeds on both dates of the row. */
  predicate Loggable(row: IpoRow) {
    row.openingDate.At? && row.closingDate.At?
  }

  predicate AllLoggable(rows: seq<IpoRow>) {
    forall i :: 0 <= i < |rows| ==> Loggable(rows[i])
  }

  /** The body of the answer: the three buckets, or 500 "Server Error". */
  datatype DashboardReply =
    | Buckets(active: seq<IpoRow>, upcoming: seq<IpoRow>, past: seq<IpoRow>)
    | DashboardError

  /** The handler after its query: `result` is the query's rows, `None` when it throws. */
  method Dashboard(result: Option<seq<IpoRow>>, now: int) returns (reply: DashboardReply)
    ensures reply.DashboardError? <==>
              result.None? || !AllLoggable(result.value)
    ensures reply.Buckets? ==>
              && reply.active == BucketRows(result.value, now, Active)
              && reply.upcoming == BucketRows(result.value, now, Upcoming)
              && reply.past == BucketRows(result.value, now, Past)
              && |reply.active| + |reply.upcoming| + |reply.past| == |result.value|
  {
    if result.None? {
      return DashboardError;
    }
    reply := Categorize(result.value, now);
  }

  /** A bucket as the handler's `forEach` builds it: row by row, each relabelled row
      pushed onto the end. */
  function Pushed(rows: seq<IpoRow>, now: int, k: Bucket): seq<IpoRow> {
    if |rows| == 0 then []
    else
      var last := rows[|rows| - 1];
      Pushed(rows[..|rows| - 1], now, k) + (if Classify(last, now) == k then [last.(status := Label(k))] else [])
  }

  lemma PushedSnoc(rows: seq<IpoRow>, row: IpoRow, now: int, k: Bucket)
    ensures Pushed(rows + [row], now, k)
            == Pushed(rows, now, k) + (if Classify(row, now) == k then [row.(status := Label(k))] else [])
  {
    assert (rows + [row])[..|rows|] == rows;
  }

  /** Building a bucket row by row gives the reference bucket. */
  lemma {:induction false} PushedIsBucketRows(rows: seq<IpoRow>, now: int, k: Bucket)
    ensures Pushed(rows, now, k) == BucketRows(rows, now, k)
    decreases |rows|
  {
    if |rows| > 0 {
      var init := rows[..|rows| - 1];
      var last := rows[|rows| - 1];
      assert rows == init + [last];
      PushedIsBucketRows(init, now, k);
      BucketRowsSnoc(init, last, now, k);
    }
  }

  /** The handler's `forEach`: push each row, relabelled, onto the bucket its dates select;
      a throw abandons the buckets built so far. */
  method Categorize(rows: seq<IpoRow>, now: int) returns (reply: DashboardReply)
    ensures reply.DashboardError? <==> !AllLoggable(rows)
    ensures reply.Buckets? ==>
              && reply.active == BucketRows(rows, now, Active)
              && reply.upcoming == BucketRows(rows, now, Upcoming)
              && reply.past == BucketRows(rows, now, Past)
              && |reply.active| + |reply.upcoming| + |reply.past| == |rows|
  {
    var active, upcoming, past := [], [], [];
    var i := 0;
    while i < |rows|
      invariant 0 <= i <= |rows|
      invariant AllLoggable(rows[..i])
      invariant active == Pushed(rows[..i], now, Active)
      invariant upcoming == Pushed(rows[..i], now, Upcoming)
      invariant past == Pushed(rows[..i], now, Past)
    {
      var row := rows[i];
      if !Loggable(row) {
        assert !AllLoggable(rows);
        return DashboardError;
      }
      assert rows[..i + 1] == rows[..i] + [row];
      active, upcoming, past := Push(rows[..i], row, now, active, upcoming, past);
      i := i + 1;
    }
    assert rows[..|rows|] == rows;
    PushedIsBucketRows(rows, now, Active);
    PushedIsBucketRows(rows, now, Upcoming);
    PushedIsBucketRows(rows, now, Past);
    BucketSizesSum(rows, now);
    reply := Buckets(active, upcoming, past);
  }

  /** One iteration of the `forEach` on a row with valid dates. */
  method Push(seen: seq<IpoRow>, row: IpoRow, now: int,
              active: seq<IpoRow>, upcoming: seq<IpoRow>, past: seq<IpoRow>)
    returns (active': seq<IpoRow>, upcoming': seq<IpoRow>, past': seq<IpoRow>)
    requires active == Pushed(seen, now, Active)
    requires upcoming == Pushed(seen, now, Upcoming)
    requires past == Pushed(seen, now, Past)
    ensures active' == Pushed(seen + [row], now, Active)
    ensures upcoming' == Pushed(seen + [row], now, Upcoming)
    ensures past' == Pushed(seen + [row], now, Past)
  {
    PushedSnoc(seen, row, now, Active);
    PushedSnoc(seen, row, now, Upcoming);
    PushedSnoc(seen, row, now, Past);
    active', upcoming', past' := active, upcoming, past;
    if AtOrBefore(row.openingDate, now) && AtOrAfter(row.closingDate, now) {
      active' := active + [row.(status := "Active")];
    } else if Later(row.openingDate, now) {
      upcoming' := upcoming + [row.(status := "Upcoming")];
    } else {
      past' := past + [row.(status := "PastIPO")];
    }
  }

  /** The three buckets together are exactly as large as the input. */
  lemma {:induction false} BucketSizesSum(rows: seq<IpoRow>, now: int)
    ensures |BucketRows(rows, now, Active)| + |BucketRows(rows, now, Upcoming)|
            + |BucketRows(rows, now, Past)| == |rows|
    decreases |rows|
  {
    if |rows| > 0 {
      var init := rows[..|rows| - 1];
      var last := rows[|rows| - 1];
      assert rows == init + [last];
      BucketSizesSum(init, now);
      BucketRowsSnoc(init, last, now, Active);
      BucketRowsSnoc(init, last, now, Upcoming);
      BucketRowsSnoc(init, last, now, Past);
    }
  }

  /** Each input row lands in exactly one bucket: its position is kept by the filter of
      its own class and by no other. */
  lemma ExactlyOneBucket(rows: seq<IpoRow>, now: int, i: nat)
    requires i < |rows|
    ensures i in KeptPositions(rows, InBucket(now, Classify(rows[i], now)))
    ensures forall k: Bucket :: k != Classify(rows[i], now) ==> i !in KeptPositions(rows, InBucket(now, k))
  {
    KeptPositionsExact(rows, InBucket(now, Active), i);
    KeptPositionsExact(rows, InBucket(now, Upcoming), i);
    KeptPositionsExact(rows, InBucket(now, Past), i);
  }

  /** A bucket is the rows of its class in their original order (positions strictly
      increasing), each with `status` set to the bucket's label and every other field kept. */
  lemma BucketPreservesOrderAndFields(rows: seq<IpoRow>, now: int, k: Bucket)
    ensures var idx := KeptPositions(rows, InBucket(now, k));
            var b := BucketRows(rows, now, k);
            && |idx| == |b|
            && (forall m, n :: 0 <= m < n < |idx| ==> idx[m] < idx[n])
            && (forall m :: 0 <= m < |b| ==>
                  idx[m] < |rows| && Classify(rows[idx[m]], now) == k
                  && b[m] == rows[idx[m]].(status := Label(k)))
  {
    KeptPositionsOrdered(rows, InBucket(now, k));
  }
}

=== FILE: dummy_routes.dfy ===
/** The in-memory API: lookups over four constant arrays (IPOs, users, transactions and
    watchlists). Every route is a `find` or a `filter` that answers 404 when nothing matches.

    Route parameters are strings and the records' ids are numbers, compared with `==`:
    the string is converted with ToNumber, which is a parameter here (`toNumber`). */
module DummyRoutes {
  import opened Wrappers
  import opened JsValues
  import opened Collections

  // ---------------------------------------------------------------------------------------
  // Loose equality against a route parameter

  /** `===` on numbers: NaN equals nothing. */
  predicate NumberEq(a: JsNumber, b: JsNumber) {
    !a.NaN? && !b.NaN? && a == b
  }

  /** `v == s` for a string `s` (the IsLooselyEqual algorithm of ECMAScript): `undefined` and
      `null` equal no string, numbers and booleans compare with `ToNumber(s)`, strings
      compare exactly, and a plain object compares through its string form. */
  function LooseEqString(v: JsVal, s: string, toNumber: string -> JsNumber): (eq: bool)
    ensures v.Undefined? || v.Null? ==> !eq
    // A number equals the parameter exactly when the parameter converts to that very number;
    // NaN, on either side, equals nothing.
    ensures v.Number? ==> (eq <==> !v.n.NaN? && toNumber(s) == v.n)
    ensures v.Bool? ==> (eq <==> toNumber(s) == Finite(if v.b then 1.0 else 0.0))
    ensures v.Str? ==> (eq <==> v.s == s)
    ensures toNumber(s).NaN? ==> (eq <==> (v.Str? && v.s == s) || (v.Object? && s == "[object Object]"))
  {
    match v
    case Undefined => false
    case Null => false
    case Bool(b) => NumberEq(Finite(if b then 1.0 else 0.0), toNumber(s))
    case Number(n) => NumberEq(n, toNumber(s))
    case Str(t) => t == s
    case Object => s == "[object Object]"
  }

  function IdValue(id: int): JsVal {
    Number(Finite(id as real))
  }

  // ---------------------------------------------------------------------------------------
  // The records

  datatype IpoDetails = IpoDetails(issueSize: string, lotSize: int, listingDate: string, industry: string)
  datatype CompanyInfo = CompanyInfo(ceo: string, headquarters: string, foundedYear: int)
  datatype MarketData = MarketData(openingPrice: int, currentPrice: int, volumeTraded: int)

  datatype Ipo = Ipo(
    id: int,
    company: string,
    price: int,
    status: string,
    closingDate: string,
    details: IpoDetails,
    companyInfo: CompanyInfo,
    marketData: MarketData)

  /** A user record: it has an `id` but no `user_id`. */
  datatype User = User(id: int, fullName: string, email: string, phone: string, role: string)

  datatype Transaction = Transaction(
    id: int, userId: int, ipoId: int, amount: int, paymentStatus: string, transactionDate: string)

  datatype WatchlistEntry = WatchlistEntry(id: int, userId: int, ipoId: int, createdAt: string)

  const Ipos: seq<Ipo> := [
    Ipo(1, "Company A", 100, "Open", "2025-04-15",
        IpoDetails("500M", 10, "2025-04-18", "Tech"),
        CompanyInfo("John Doe", "New York, USA", 2010),
        MarketData(110, 120, 1000000)),
    Ipo(2, "Company B", 150, "Closed", "2025-03-20",
        IpoDetails("750M", 15, "2025-03-22", "Finance"),
        CompanyInfo("Jane Smith", "London, UK", 2005),
        MarketData(155, 140, 800000)),
    Ipo(3, "Company C", 120, "Upcoming", "2025-05-10",
        IpoDetails("300M", 8, "2025-05-12", "Healthcare"),
        CompanyInfo("Alice Johnson", "Mumbai, India", 2018),
        MarketData(125, 130, 500000))
  ]

  const Users: seq<User> := [
    User(1, "Alice Johnson", "alice@example.com", "1234567890", "user"),
    User(2, "Bob Smith", "bob@example.com", "2345678901", "admin")
  ]

  const Transactions: seq<Transaction> := [
    Transaction(1, 1, 1, 5000, "Completed", "2025-03-10"),
    Transaction(2, 2, 2, 3000, "Pending", "2025-03-11")
  ]

  const Watchlists: seq<WatchlistEntry> := [
    WatchlistEntry(1, 1, 1, "2025-03-08"),
    WatchlistEntry(2, 2, 3, "2025-03-09")
  ]

  /** A JSON answer: the found value, or 404 with a message. */
  datatype Reply<T> = Found(body: T) | NotFound(message: string)

  // ---------------------------------------------------------------------------------------
  // Lookups

  /** `records.find(pred)`: the first match, or 404. */
  function FindOr404<T>(records: seq<T>, pred: T -> bool, message: string): (r: Reply<T>)
    ensures r.Found? ==> r.body in records && pred(r.body)
    ensures r.Found? ==> exists i :: 0 <= i < |records| && records[i] == r.body
                           && forall k :: 0 <= k < i ==> !pred(records[k])
    ensures r.NotFound? <==> forall x :: x in records ==> !pred(x)
    ensures r.NotFound? ==> r.message == message
  {
    match FindFirst(records, pred)
    case None => NotFound(message)
    case Some(i) => Found(records[i])
  }

  /** `records.filter(pred)`, answered with 404 when empty. */
  function FilterOr404<T>(records: seq<T>, pred: T -> bool, message: string): (r: Reply<seq<T>>)
    ensures r.NotFound? <==> forall x :: x in records ==> !pred(x)
    ensures r.NotFound? ==> r.message == message
    // Exactly the matching records: nothing else, and none left out.
    ensures r.Found? ==> |r.body| > 0
    ensures r.Found? ==> forall x :: x in r.body ==> x in records && pred(x)
    ensures r.Found? ==> forall x :: x in records && pred(x) ==> x in r.body
    // In their order in the data (`KeptPositionsOrdered` gives the positions).
    ensures r.Found? ==> r.body == Filter(records, pred)
  {
    var kept := Filter(records, pred);
    FilterEmptyIff(records, pred);
    if |kept| > 0 then
      assert forall x :: x in records && pred(x) ==> x in kept by {
        forall x | x in records && pred(x) ensures x in kept {
          FilterKeepsMatches(records, pred, x);
        }
      }
      Found(kept)
    else NotFound(message)
  }

  /** `user.user_id`: a property the records do not have. */
  function UserIdField(u: User): JsVal {
    Undefined
  }

  /** `GET /users/:userid`. */
  function UserByUserId(userid: string, toNumber: string -> JsNumber): (r: Reply<User>)
    ensures r.Found? ==> r.body in Users
  {
    FindOr404(Users, (u: User) => LooseEqString(UserIdField(u), userid, toNumber), "User not found")
  }

  /** No user is ever found: `undefined == userid` is false for every parameter. */
  lemma UserByUserIdAlwaysNotFound(userid: string, toNumber: string -> JsNumber)
    ensures UserByUserId(userid, toNumber) == NotFound("User not found")
  {
  }

  /** `t => t.user_id == req.params.user_id`. */
  function OfUserTx(userId: string, toNumber: string -> JsNumber): Transaction -> bool {
    (t: Transaction) => LooseEqString(IdValue(t.userId), userId, toNumber)
  }

  /** `w => w.user_id == req.params.user_id`. */
  function OfUserWl(userId: string, toNumber: string -> JsNumber): WatchlistEntry -> bool {
    (w: WatchlistEntry) => LooseEqString(IdValue(w.userId), userId, toNumber)
  }

  /** `GET /transactions/user/:user_id`. */
  function TransactionsOfUser(userId: string, toNumber: string -> JsNumber): (r: Reply<seq<Transaction>>)
    ensures r.NotFound? <==> forall t :: t in Transactions ==> !LooseEqString(IdValue(t.userId), userId, toNumber)
    ensures r.NotFound? ==> r.message == "No transactions found"
    ensures r.Found? ==>
              forall t :: t in r.body <==> t in Transactions && LooseEqString(IdValue(t.userId), userId, toNumber)
    ensures r.Found? ==> r.body == Filter(Transactions, OfUserTx(userId, toNumber))
  {
    FilterOr404(Transactions, OfUserTx(userId, toNumber), "No transactions found")
  }

  /** `GET /watchlist/user/:user_id`. */
  function WatchlistOfUser(userId: string, toNumber: string -> JsNumber): (r: Reply<seq<WatchlistEntry>>)
    ensures r.NotFound? <==> forall w :: w in Watchlists ==> !LooseEqString(IdValue(w.userId), userId, toNumber)
    ensures r.NotFound? ==> r.message == "No watchlist found"
    ensures r.Found? ==>
              forall w :: w in r.body <==> w in Watchlists && LooseEqString(IdValue(w.userId), userId, toNumber)
    ensures r.Found? ==> r.body == Filter(Watchlists, OfUserWl(userId, toNumber))
  {
    FilterOr404(Watchlists, OfUserWl(userId, toNumber), "No watchlist found")
  }

  /** The filtered records keep their order in the data: the transactions and the watchlist
      entries found sit at strictly increasing positions of their arrays. */
  lemma UserRecordsInOrder(userId: string, toNumber: string -> JsNumber)
    ensures var r := TransactionsOfUser(userId, toNumber);
            var idx := KeptPositions(Transactions, OfUserTx(userId, toNumber));
            r.Found? ==>
              && |idx| == |r.body|
              && (forall m, n :: 0 <= m < n < |idx| ==> idx[m] < idx[n])
              && (forall m :: 0 <= m < |idx| ==> idx[m] < |Transactions| && r.body[m] == Transactions[idx[m]])
    ensures var r := WatchlistOfUser(userId, toNumber);
            var idx := KeptPositions(Watchlists, OfUserWl(userId, toNumber));
            r.Found? ==>
              && |idx| == |r.body|
              && (forall m, n :: 0 <= m < n < |idx| ==> idx[m] < idx[n])
              && (forall m :: 0 <= m < |idx| ==> idx[m] < |Watchlists| && r.body[m] == Watchlists[idx[m]])
  {
    KeptPositionsOrdered(Transactions, OfUserTx(userId, toNumber));
    KeptPositionsOrdered(Watchlists, OfUserWl(userId, toNumber));
  }

  /** `GET /ipos/name/:ipos_name`: case-insensitive company match, with `toLowerCase` a
      parameter. */
  function IpoByName(name: string, lower: string -> string): (r: Reply<Ipo>)
    ensures r.Found? ==> r.body in Ipos && lower(r.body.company) == lower(name)
    // `find` answers with the first such IPO.
    ensures r.Found? ==> exists i :: 0 <= i < |Ipos| && Ipos[i] == r.body
                           && forall k :: 0 <= k < i ==> lower(Ipos[k].company) != lower(name)
    ensures r.NotFound? <==> forall i :: i in Ipos ==> lower(i.company) != lower(name)
    ensures r.NotFound? ==> r.message == "IPO not found"
  {
    FindOr404(Ipos, (i: Ipo) => lower(i.company) == lower(name), "IPO not found")
  }

  /** `GET /ipos/id/:id`. */
  function IpoById(id: string, toNumber: string -> JsNumber): (r: Reply<Ipo>)
    ensures r.Found? ==> r.body in Ipos && LooseEqString(IdValue(r.body.id), id, toNumber)
    ensures r.Found? ==> exists i :: 0 <= i < |Ipos| && Ipos[i] == r.body
                           && forall k :: 0 <= k < i ==> !LooseEqString(IdValue(Ipos[k].id), id, toNumber)
    ensures r.NotFound? <==> forall i :: i in Ipos ==> !LooseEqString(IdValue(i.id), id, toNumber)
    ensures r.NotFound? ==> r.message == "IPO not found"
  {
    FindOr404(Ipos, (i: Ipo) => LooseEqString(IdValue(i.id), id, toNumber), "IPO not found")
  }

  /** `GET /ipos/market/:id`: the same search, answering with `market_data`. */
  function IpoMarket(id: string, toNumber: string -> JsNumber): (r: Reply<MarketData>)
    ensures r.NotFound? ==> r.message == "IPO not found"
  {
    match IpoById(id, toNumber)
    case NotFound(m) => NotFound(m)
    case Found(ipo) => Found(ipo.marketData)
  }

  /** The market route answers exactly when the id route does, with that IPO's market data. */
  lemma MarketFollowsIdLookup(id: string, toNumber: string -> JsNumber)
    ensures IpoMarket(id, toNumber).Found? <==> IpoById(id, toNumber).Found?
    ensures IpoMarket(id, toNumber).Found? ==>
              IpoMarket(id, toNumber).body == IpoById(id, toNumber).body.marketData
  {
  }

  /** Ids are distinct in the data, so the id routes find the one IPO whose id matches. */
  lemma IpoByIdFindsTheMatch(id: string, toNumber: string -> JsNumber, k: nat)
    requires k < |Ipos| && LooseEqString(IdValue(Ipos[k].id), id, toNumber)
    ensures IpoById(id, toNumber) == Found(Ipos[k])
  {
    assert IdValue(1) == Number(Finite(1.0)) && IdValue(2) == Number(Finite(2.0))
           && IdValue(3) == Number(Finite(3.0));
  }

  /** With `"1"` converting to 1, user 1 has exactly the first transaction. */
  lemma UserOneTransactions(toNumber: string -> JsNumber)
    requires toNumber("1") == Finite(1.0)
    ensures TransactionsOfUser("1", toNumber) == Found([Transactions[0]])
  {
    var p := OfUserTx("1", toNumber);
    assert p(Transactions[0]) && !p(Transactions[1]);
    FilterSnoc([], Transactions[0], p);
    FilterSnoc([Transactions[0]], Transactions[1], p);
    assert [Transactions[0]] + [Transactions[1]] == Transactions;
    assert Filter(Transactions, p) == [Transactions[0]];
  }

  /** With `"1"` converting to 1, user 1 has exactly the first watchlist entry. */
  lemma UserOneWatchlist(toNumber: string -> JsNumber)
    requires toNumber("1") == Finite(1.0)
    ensures WatchlistOfUser("1", toNumber) == Found([Watchlists[0]])
  {
    var q := OfUserWl("1", toNumber);
    assert q(Watchlists[0]) && !q(Watchlists[1]);
    FilterSnoc([], Watchlists[0], q);
    FilterSnoc([Watchlists[0]], Watchlists[1], q);
    assert [Watchlists[0]] + [Watchlists[1]] == Watchlists;
    assert Filter(Watchlists, q) == [Watchlists[0]];
  }
}

=== FILE: ipo_update.dfy ===
/** `PUT /iposupdate/:id`: check that `price_band`, `issue_size` and `issue_type` are all
    present, parse the first two as numbers, and issue one UPDATE. `parseFloat` and
    `parseInt(x, 10)` are parameters (`parseInt` gives `None` for NaN); `fails(stmt)` says
    whether the UPDATE throws, and `toId` is the database's cast of the path id to the
    integer `id` column. The handler has no existence check: an UPDATE that matches no
    row still answers 200. */
module IpoUpdate {
  import opened Wrappers
  import opened JsValues

  /** `UPDATE ipos SET price_band = $1, issue_size = $2, issue_type = $3 WHERE id = $4`. */
  datatype UpdateStmt = UpdateStmt(priceBand: JsNumber, issueSize: int, issueType: JsVal, id: string)

  datatype UpdateReply =
    | Updated            // 200 "IPO updated successfully"
    | AllFieldsRequired  // 400 "All fields are required"
    | InvalidFormat      // 400 "Invalid data format for price_band or issue_size"
    | UpdateServerError  // 500 "Internal Server Error"

  /** The reply and the statement sent to the database, if any. */
  datatype UpdateRun = UpdateRun(reply: UpdateReply, issued: Option<UpdateStmt>)

  predicate FieldsPresent(priceBand: JsVal, issueSize: JsVal, issueType: JsVal) {
    Truthy(priceBand) && Truthy(issueSize) && Truthy(issueType)
  }

  function UpdateIpo(id: string, priceBand: JsVal, issueSize: JsVal, issueType: JsVal,
                     parseFloat: JsVal -> JsNumber, parseInt: JsVal -> Option<int>,
                     fails: UpdateStmt -> bool): (r: UpdateRun)
    ensures r.reply == AllFieldsRequired <==> !FieldsPresent(priceBand, issueSize, issueType)
    ensures r.reply == InvalidFormat <==>
              FieldsPresent(priceBand, issueSize, issueType)
              && (IsNaN(parseFloat(priceBand)) || parseInt(issueSize).None?)
    // A rejected request never reaches the database.
    ensures r.issued.Some? <==>
              FieldsPresent(priceBand, issueSize, issueType)
              && !IsNaN(parseFloat(priceBand)) && parseInt(issueSize).Some?
    // What is stored is the parsed numbers, the type as sent, and the id from the path.
    ensures r.issued.Some? ==>
              && r.issued.value.priceBand == parseFloat(priceBand) && !IsNaN(r.issued.value.priceBand)
              && Some(r.issued.value.issueSize) == parseInt(issueSize)
              && r.issued.value.issueType == issueType && r.issued.value.id == id
    ensures r.reply == Updated <==> r.issued.Some? && !fails(r.issued.value)
    ensures r.reply == UpdateServerError <==> r.issued.Some? && fails(r.issued.value)
  {
    if !FieldsPresent(priceBand, issueSize, issueType) then UpdateRun(AllFieldsRequired, None)
    else
      var band := parseFloat(priceBand);
      var size := parseInt(issueSize);
      if IsNaN(band) || size.None? then UpdateRun(InvalidFormat, None)
      else
        var stmt := UpdateStmt(band, size.value, issueType, id);
        if fails(stmt) then UpdateRun(UpdateServerError, Some(stmt))
        else UpdateRun(Updated, Some(stmt))
  }

  // ---------------------------------------------------------------------------------------
  // What the UPDATE does to the table

  datatype IpoTerms = IpoTerms(priceBand: JsNumber, issueSize: int, issueType: JsVal)

  /** The `ipos` table, by its integer id. `WHERE id = $4` compares the column with the path
      text cast to an integer: `toId(text)` is that cast, `None` when the text is not an
      integer (the UPDATE then throws). So `"01"` and `"1"` name the same row. */
  function Apply(table: map<int, IpoTerms>, stmt: UpdateStmt, toId: string -> Option<int>)
    : (t: Option<map<int, IpoTerms>>)
    ensures t.None? <==> toId(stmt.id).None?
    ensures t.Some? ==> t.value.Keys == table.Keys
    ensures t.Some? && toId(stmt.id).value in table ==>
              t.value[toId(stmt.id).value] == IpoTerms(stmt.priceBand, stmt.issueSize, stmt.issueType)
    ensures t.Some? ==> forall k :: k in table && k != toId(stmt.id).value ==> t.value[k] == table[k]
  {
    match toId(stmt.id)
    case None => None
    case Some(key) =>
      if key in table then Some(table[key := IpoTerms(stmt.priceBand, stmt.issueSize, stmt.issueType)])
      else Some(table)
  }

  /** Two spellings of the same integer id update the same row in the same way. */
  lemma SameIdSameUpdate(table: map<int, IpoTerms>, stmt: UpdateStmt, other: string,
                         toId: string -> Option<int>)
    requires toId(other) == toId(stmt.id)
    ensures Apply(table, stmt.(id := other), toId) == Apply(table, stmt, toId)
  {
  }

  /** The database's side: a statement whose id does not cast to an integer throws. */
  ghost predicate CastFailureThrows(fails: UpdateStmt -> bool, toId: string -> Option<int>) {
    forall stmt: UpdateStmt :: toId(stmt.id).None? ==> fails(stmt)
  }

  /** A valid body with a non-integer id reaches the database and answers 500. */
  lemma NonIntegerIdIsServerError(id: string, priceBand: JsVal, issueSize: JsVal, issueType: JsVal,
                                  parseFloat: JsVal -> JsNumber, parseInt: JsVal -> Option<int>,
                                  fails: UpdateStmt -> bool, toId: string -> Option<int>)
    requires CastFailureThrows(fails, toId)
    requires toId(id).None?
    requires FieldsPresent(priceBand, issueSize, issueType)
    requires !IsNaN(parseFloat(priceBand)) && parseInt(issueSize).Some?
    ensures UpdateIpo(id, priceBand, issueSize, issueType, parseFloat, parseInt, fails).reply
            == UpdateServerError
  {
    var stmt := UpdateStmt(parseFloat(priceBand), parseInt(issueSize).value, issueType, id);
    assert toId(stmt.id).None?;
  }

  /** An id with no IPO: the answer is still 200 and the table is left as it was. */
  lemma MissingIpoStillUpdated(table: map<int, IpoTerms>, id: string, toId: string -> Option<int>,
                               priceBand: JsVal, issueSize: JsVal, issueType: JsVal,
                               parseFloat: JsVal -> JsNumber, parseInt: JsVal -> Option<int>,
                               fails: UpdateStmt -> bool)
    requires toId(id).Some? && toId(id).value !in table
    requires FieldsPresent(priceBand, issueSize, issueType)
    requires !IsNaN(parseFloat(priceBand)) && parseInt(issueSize).Some?
    requires !fails(UpdateStmt(parseFloat(priceBand), parseInt(issueSize).value, issueType, id))
    ensures var r := UpdateIpo(id, priceBand, issueSize, issueType, parseFloat, parseInt, fails);
            r.reply == Updated && Apply(table, r.issued.value, toId) == Some(table)
  {
  }

  /** Validation does not depend on the database: any two databases reject the same
      requests with the same 400. */
  lemma ValidationIgnoresDatabase(id: string, priceBand: JsVal, issueSize: JsVal, issueType: JsVal,
                                  parseFloat: JsVal -> JsNumber, parseInt: JsVal -> Option<int>,
                                  f1: UpdateStmt -> bool, f2: UpdateStmt -> bool)
    requires !FieldsPresent(priceBand, issueSize, issueType)
             || IsNaN(parseFloat(priceBand)) || parseInt(issueSize).None?
    ensures UpdateIpo(id, priceBand, issueSize, issueType, parseFloat, parseInt, f1)
            == UpdateIpo(id, priceBand, issueSize, issueType, parseFloat, parseInt, f2)
    ensures UpdateIpo(id, priceBand, issueSize, issueType, parseFloat, parseInt, f1).reply
            in {AllFieldsRequired, InvalidFormat}
  {
  }
}

=== FILE: js_values.dfy ===
/** The slice of JavaScript's value semantics the route handlers depend on:
    truthiness (`if (!x)`, `x ? a : b`, `a || b`), `isNaN`, and `String.prototype.trim`. */
module JsValues {

  /** A JavaScript number. Negative zero is not distinguished from zero. */
  datatype JsNumber = NaN | PosInfinity | NegInfinity | Finite(value: real)

  /** A JavaScript value as it arrives in a parsed JSON body or a query string. */
  datatype JsVal =
    | Undefined
    | Null
    | Bool(b: bool)
    | Number(n: JsNumber)
    | Str(s: string)
    | Object  // a plain object; arrays, whose string form joins their elements, are not modelled

  /** ECMAScript ToBoolean. */
  predicate Truthy(v: JsVal) {
    match v
    case Undefined => false
    case Null => false
    case Bool(b) => b
    case Number(n) => !n.NaN? && n != Finite(0.0)
    case Str(s) => |s| > 0
    case Object => true
  }

  /** The six falsy values of JavaScript, and nothing else, fail `Truthy`. */
  lemma FalsyValues(v: JsVal)
    ensures !Truthy(v) <==>
              v == Undefined || v == Null || v == Bool(false) || v == Number(NaN)
              || v == Number(Finite(0.0)) || v == Str("")
  {
  }

  /** `isNaN` applied to a number. */
  predicate IsNaN(n: JsNumber) {
    n.NaN?
  }

  /** The WhiteSpace and LineTerminator code points that `trim` removes
      (ECMAScript: TAB, VT, FF, SP, NBSP, ZWNBSP, the Zs category, LF, CR, LS, PS). */
  predicate IsWhiteSpace(c: char) {
    || c == '\U{9}' || c == '\U{B}' || c == '\U{C}' || c == ' '
    || c == '\U{A0}' || c == '\U{FEFF}' || c == '\U{1680}'
    || ('\U{2000}' <= c <= '\U{200A}')
    || c == '\U{202F}' || c == '\U{205F}' || c == '\U{3000}'
    || c == '\U{A}' || c == '\U{D}' || c == '\U{2028}' || c == '\U{2029}'
  }

  /** Index of the first character of `s` that is not white space (|s| if there is none). */
  function LeadingSpace(s: string): (i: nat)
    ensures i <= |s|
    ensures forall k :: 0 <= k < i ==> IsWhiteSpace(s[k])
    ensures i < |s| ==> !IsWhiteSpace(s[i])
  {
    if |s| == 0 || !IsWhiteSpace(s[0]) then 0 else 1 + LeadingSpace(s[1..])
  }

  /** Length of the prefix of `s` that ends in its last non-white-space character. */
  function TrailingSpace(s: string): (j: nat)
    ensures j <= |s|
    ensures forall k :: j <= k < |s| ==> IsWhiteSpace(s[k])
    ensures j > 0 ==> !IsWhiteSpace(s[j - 1])
  {
    if |s| == 0 || !IsWhiteSpace(s[|s| - 1]) then |s| else TrailingSpace(s[..|s| - 1])
  }

  /** `String.prototype.trim`. */
  function Trim(s: string): (t: string)
    ensures LeadingSpace(s) + |t| <= |s|
    ensures |t| > 0 ==> !IsWhiteSpace(t[0]) && !IsWhiteSpace(t[|t| - 1])
    ensures t == s[LeadingSpace(s)..LeadingSpace(s) + |t|]
    ensures forall k :: 0 <= k < LeadingSpace(s) ==> IsWhiteSpace(s[k])
    ensures forall k :: LeadingSpace(s) + |t| <= k < |s| ==> IsWhiteSpace(s[k])
    ensures |t| == 0 <==> forall k :: 0 <= k < |s| ==> IsWhiteSpace(s[k])
  {
    var i := LeadingSpace(s);
    var j := TrailingSpace(s);
    if i < j then s[i..j] else ""
  }

  /** Trimming twice is trimming once. */
  lemma TrimIdempotent(s: string)
    ensures Trim(Trim(s)) == Trim(s)
  {
    var t := Trim(s);
    if |t| > 0 {
      assert LeadingSpace(t) == 0;
      assert TrailingSpace(t) == |t|;
    }
  }
}

=== FILE: pagination.dfy ===
/** Page arithmetic of the paginated listings `GET /users` and `GET /ipos`:
    `page = parseInt(page) || 1`, `limit = parseInt(limit) || 10`,
    `offset = (page - 1) * limit` and `totalPages = Math.ceil(totalRows / limit)`.
    `parseInt` is given by its result: `None` for NaN. Queries are parameters that may throw
    (`None`). */
module Pagination {
  import opened Wrappers

  const DefaultPage := 1
  const DefaultLimit := 10

  /** `parseInt(x) || fallback`: both NaN and 0 are falsy, so both give way to the fallback. */
  function OrDefault(parsed: Option<int>, fallback: int): (v: int)
    ensures parsed.None? || parsed == Some(0) ==> v == fallback
    ensures parsed.Some? && parsed.value != 0 ==> v == parsed.value
    ensures fallback != 0 ==> v != 0
  {
    if parsed.Some? && parsed.value != 0 then parsed.value else fallback
  }

  /** The rows a request asks for: `limit` rows starting at row `offset`. */
  datatype Window = Window(page: int, limit: int, offset: int)

  function PageWindow(pageParam: Option<int>, limitParam: Option<int>): (w: Window)
    ensures w.page != 0 && w.limit != 0
    // Each parameter is parsed and defaulted on its own.
    ensures w.page == OrDefault(pageParam, DefaultPage) && w.limit == OrDefault(limitParam, DefaultLimit)
    ensures pageParam.None? || pageParam == Some(0) ==> w.page == DefaultPage
    ensures limitParam.None? || limitParam == Some(0) ==> w.limit == DefaultLimit
    // The window of page p starts where the windows of pages 1 .. p-1 end (for every page,
    // a negative one included).
    ensures w.offset == (w.page - 1) * w.limit
    ensures w.page == 1 ==> w.offset == 0
  {
    var page := OrDefault(pageParam, DefaultPage);
    var limit := OrDefault(limitParam, DefaultLimit);
    Window(page, limit, (page - 1) * limit)
  }

  /** Consecutive pages tile the result: page p + 1 starts exactly `limit` rows after page p. */
  lemma ConsecutivePagesAdjacent(p: int, limit: int)
    requires p >= 1 && limit != 0
    ensures PageWindow(Some(p + 1), Some(limit)).offset
            == PageWindow(Some(p), Some(limit)).offset + limit
  {
    assert p * limit == (p - 1) * limit + limit;
  }

  /** `Math.ceil(totalRows / limit)` for a non-zero limit (a negative one is truthy and passes
      `|| 10` unchanged). */
  function TotalPages(totalRows: nat, limit: int): (pages: int)
    requires limit != 0
    ensures limit > 0 ==> (pages - 1) * limit < totalRows <= pages * limit
    ensures limit < 0 ==> pages * limit <= totalRows < (pages - 1) * limit
  {
    if limit > 0 then
      var q := (totalRows + limit - 1) / limit;
      DivBounds(totalRows + limit - 1, limit);
      q
    else
      var q := totalRows / (-limit);
      DivBounds(totalRows, -limit);
      -q
  }

  lemma DivBounds(a: int, d: int)
    requires d > 0
    ensures (a / d) * d <= a < (a / d) * d + d
  {
  }

  /** For a positive page and limit, the requested page holds rows exactly when it is one of
      the `totalPages` pages. */
  lemma PageNonEmptyIffWithinTotal(totalRows: nat, page: int, limit: int)
    requires page >= 1 && limit >= 1
    ensures (page - 1) * limit < totalRows <==> page <= TotalPages(totalRows, limit)
  {
    var n := TotalPages(totalRows, limit);
    if page <= n {
      assert (page - 1) * limit <= (n - 1) * limit by {
        MultiplyMonotone(page - 1, n - 1, limit);
      }
    } else {
      assert n * limit <= (page - 1) * limit by {
        MultiplyMonotone(n, page - 1, limit);
      }
    }
  }

  lemma MultiplyMonotone(a: int, b: int, c: int)
    requires a <= b && c >= 0
    ensures a * c <= b * c
  {
  }

  /** The body of `GET /ipos`. */
  datatype IposReply<R> =
    | IposPage(page: int, totalPages: int, totalRecords: nat, ipos: seq<R>)
    | IposServerError

  /** `fetch(limit, offset)` runs `... LIMIT $1 OFFSET $2`; `count` is the parsed `COUNT(*)`. */
  function ListIpos<R>(pageParam: Option<int>, limitParam: Option<int>,
                       fetch: (int, int) -> Option<seq<R>>, count: Option<nat>): (reply: IposReply<R>)
    ensures reply.IposServerError? <==>
              fetch(PageWindow(pageParam, limitParam).limit, PageWindow(pageParam, limitParam).offset).None?
              || count.None?
    ensures reply.IposPage? ==>
              && reply.page == PageWindow(pageParam, limitParam).page
              && reply.totalRecords == count.value
              && reply.ipos == fetch(PageWindow(pageParam, limitParam).limit,
                                     PageWindow(pageParam, limitParam).offset).value
              && (PageWindow(pageParam, limitParam).limit > 0 ==>
                    (reply.totalPages - 1) * PageWindow(pageParam, limitParam).limit < reply.totalRecords
                    <= reply.totalPages * PageWindow(pageParam, limitParam).limit)
  {
    var w := PageWindow(pageParam, limitParam);
    match fetch(w.limit, w.offset)
    case None => IposServerError
    case Some(rows) =>
      match count
      case None => IposServerError
      case Some(totalRows) => IposPage(w.page, TotalPages(totalRows, w.limit), totalRows, rows)
  }

  /** The body of `GET /users`. `totalUsers` counts the rows of this page, not all users. */
  datatype UsersReply<R> =
    | UsersPage(totalUsers: nat, page: int, limit: int, users: seq<R>)
    | UsersError

  function ListUsers<R>(pageParam: Option<int>, limitParam: Option<int>,
                        fetch: (int, int) -> Option<seq<R>>): (reply: UsersReply<R>)
    ensures reply.UsersError? <==>
              fetch(PageWindow(pageParam, limitParam).limit, PageWindow(pageParam, limitParam).offset).None?
    ensures reply.UsersPage? ==>
              && reply.users == fetch(PageWindow(pageParam, limitParam).limit,
                                      PageWindow(pageParam, limitParam).offset).value
              && reply.page == PageWindow(pageParam, limitParam).page
              && reply.limit == PageWindow(pageParam, limitParam).limit
              && reply.totalUsers == |reply.users| && reply.page != 0 && reply.limit != 0
  {
    var w := PageWindow(pageParam, limitParam);
    match fetch(w.limit, w.offset)
    case None => UsersError
    case Some(rows) => UsersPage(|rows|, w.page, w.limit, rows)
  }
}

=== FILE: search_query.dfy ===
/** The `GET /ipos/search` query builder. Starting from `SELECT * FROM ipos WHERE 1=1` it
    appends, in order, an optional company-name clause, an optional opening-date clause and
    an optional price clause, pushing one positional parameter per placeholder, and closes
    with `ORDER BY opening_date DESC`.

    The query text is a sequence of tokens: fixed SQL fragments and placeholders `$n`.
    Two library calls are parameters: `toIsoDay(x)` stands for
    `new Date(x).toISOString().split("T")[0]` (None when `toISOString` throws on an invalid
    date) and `parseFloat(x)`. */
module SearchQuery {
  import opened Wrappers
  import opened JsValues

  /** A value bound to a placeholder; JavaScript `null` is bound as SQL NULL. */
  datatype Param = TextParam(text: string) | NumParam(num: JsNumber) | NullParam

  /** A piece of query text: fixed SQL, or the placeholder `$n`. */
  datatype Token = Sql(text: string) | Placeholder(n: nat)

  // The fixed fragments of the query (whitespace compacted).
  const SelectIpos := "SELECT * FROM ipos WHERE 1=1"
  const NameExists :=
    " AND EXISTS (SELECT 1 FROM companies WHERE companies.id = ipos.company_id AND companies.name ILIKE "
  const CloseParen := ")"
  const OpeningBetween := " AND opening_date BETWEEN "
  const OpeningFrom := " AND opening_date >= "
  const OpeningUntil := " AND opening_date <= "
  const PriceBetween := " AND price_per_ipo BETWEEN "
  const PriceFrom := " AND price_per_ipo >= "
  const PriceUntil := " AND price_per_ipo <= "
  const And := " AND "
  const OrderByOpeningDesc := " ORDER BY opening_date DESC"

  const Fragments: set<string> :=
    {SelectIpos, NameExists, CloseParen, OpeningBetween, OpeningFrom, OpeningUntil,
     PriceBetween, PriceFrom, PriceUntil, And, OrderByOpeningDesc}

  /** The date part of an ISO timestamp; `toISOString` never yields an empty one. */
  type IsoDay = s: string | |s| > 0 witness "0"

  /** The query-string parameters of the route. */
  datatype SearchRequest =
    SearchRequest(name: JsVal, startDate: JsVal, endDate: JsVal, minPrice: JsVal, maxPrice: JsVal)

  datatype SearchError = InvalidDate

  /** One filter the builder may append. */
  datatype Clause =
    | NameLike(pattern: string)
    | OpeningRange(from: IsoDay, until: IsoDay)
    | OpeningOnOrAfter(day: IsoDay)
    | OpeningOnOrBefore(day: IsoDay)
    | PriceRange(low: Param, high: Param)
    | PriceAtLeast(bound: Param)
    | PriceAtMost(bound: Param)

  /** The parameters a clause pushes, in order: one for a name or a single bound, two for a
      range. */
  function ClauseValues(c: Clause): (vs: seq<Param>)
    ensures |vs| == (if c.OpeningRange? || c.PriceRange? then 2 else 1)
  {
    match c
    case NameLike(p) => [TextParam(p)]
    case OpeningRange(d1, d2) => [TextParam(d1), TextParam(d2)]
    case OpeningOnOrAfter(d) => [TextParam(d)]
    case OpeningOnOrBefore(d) => [TextParam(d)]
    case PriceRange(lo, hi) => [lo, hi]
    case PriceAtLeast(p) => [p]
    case PriceAtMost(p) => [p]
  }

  /** The text a clause appends when the next free placeholder is `$i`. */
  function ClauseTokens(c: Clause, i: nat): seq<Token> {
    match c
    case NameLike(_) => [Sql(NameExists), Placeholder(i), Sql(CloseParen)]
    case OpeningRange(_, _) => [Sql(OpeningBetween), Placeholder(i), Sql(And), Placeholder(i + 1)]
    case OpeningOnOrAfter(_) => [Sql(OpeningFrom), Placeholder(i)]
    case OpeningOnOrBefore(_) => [Sql(OpeningUntil), Placeholder(i)]
    case PriceRange(_, _) => [Sql(PriceBetween), Placeholder(i), Sql(And), Placeholder(i + 1)]
    case PriceAtLeast(_) => [Sql(PriceFrom), Placeholder(i)]
    case PriceAtMost(_) => [Sql(PriceUntil), Placeholder(i)]
  }

  /** Two clauses of the same kind (differing only in user data) emit the same text. */
  predicate SameKind(c: Clause, d: Clause) {
    match c
    case NameLike(_) => d.NameLike?
    case OpeningRange(_, _) => d.OpeningRange?
    case OpeningOnOrAfter(_) => d.OpeningOnOrAfter?
    case OpeningOnOrBefore(_) => d.OpeningOnOrBefore?
    case PriceRange(_, _) => d.PriceRange?
    case PriceAtLeast(_) => d.PriceAtLeast?
    case PriceAtMost(_) => d.PriceAtMost?
  }

  // ---------------------------------------------------------------------------------------
  // The builder state and its lockstep invariant

  /** `query`, `values` and `index` of the route handler. */
  datatype Builder = Builder(query: seq<Token>, values: seq<Param>, index: nat)

  /** The placeholder numbers of a query, in textual order. */
  function PlaceholderNumbers(q: seq<Token>): seq<nat> {
    if |q| == 0 then []
    else PlaceholderNumbers(q[..|q| - 1])
         + (match q[|q| - 1] case Placeholder(n) => [n] case Sql(_) => [])
  }

  /** `ns` is 1, 2, ..., n. */
  predicate CountsFromOne(ns: seq<nat>, n: nat) {
    |ns| == n && forall k :: 0 <= k < n ==> ns[k] == k + 1
  }

  /** No user text in the query: every SQL piece is one of the fixed fragments. */
  predicate FixedTextOnly(q: seq<Token>) {
    forall k :: 0 <= k < |q| && q[k].Sql? ==> q[k].text in Fragments
  }

  /** The k-th placeholder is `$k` and binds `values[k-1]`, and `index` is the next free one. */
  predicate Lockstep(b: Builder) {
    && b.index == |b.values| + 1
    && CountsFromOne(PlaceholderNumbers(b.query), |b.values|)
    && FixedTextOnly(b.query)
  }

  lemma {:induction false} PlaceholdersAppend(a: seq<Token>, b: seq<Token>)
    ensures PlaceholderNumbers(a + b) == PlaceholderNumbers(a) + PlaceholderNumbers(b)
    decreases |b|
  {
    if |b| == 0 {
      assert a + b == a;
    } else {
      var b' := b[..|b| - 1];
      assert (a + b)[..|a + b| - 1] == a + b';
      PlaceholdersAppend(a, b');
    }
  }

  lemma PlaceholdersOfSql(text: string)
    ensures PlaceholderNumbers([Sql(text)]) == []
  {
    assert [Sql(text)][..0] == [];
  }

  lemma PlaceholdersOfHole(n: nat)
    ensures PlaceholderNumbers([Placeholder(n)]) == [n]
  {
    assert [Placeholder(n)][..0] == [];
  }

  /** A clause emits fixed text and the placeholders `$i`, `$i+1`, ... for its parameters. */
  lemma ClausePlaceholders(c: Clause, i: nat)
    ensures PlaceholderNumbers(ClauseTokens(c, i)) == seq(|ClauseValues(c)|, k => i + k)
    ensures FixedTextOnly(ClauseTokens(c, i))
  {
    var t := ClauseTokens(c, i);
    PlaceholdersOfHole(i);
    PlaceholdersOfHole(i + 1);
    match c
    case NameLike(_) =>
      assert t == [Sql(NameExists)] + [Placeholder(i)] + [Sql(CloseParen)];
      PlaceholdersOfSql(NameExists);
      PlaceholdersOfSql(CloseParen);
      PlaceholdersAppend([Sql(NameExists)], [Placeholder(i)]);
      PlaceholdersAppend([Sql(NameExists)] + [Placeholder(i)], [Sql(CloseParen)]);
    case OpeningRange(_, _) =>
      RangePlaceholders(OpeningBetween, i);
    case OpeningOnOrAfter(_) =>
      BoundPlaceholders(OpeningFrom, i);
    case OpeningOnOrBefore(_) =>
      BoundPlaceholders(OpeningUntil, i);
    case PriceRange(_, _) =>
      RangePlaceholders(PriceBetween, i);
    case PriceAtLeast(_) =>
      BoundPlaceholders(PriceFrom, i);
    case PriceAtMost(_) =>
      BoundPlaceholders(PriceUntil, i);
  }

  lemma BoundPlaceholders(op: string, i: nat)
    ensures PlaceholderNumbers([Sql(op), Placeholder(i)]) == [i]
  {
    assert [Sql(op), Placeholder(i)] == [Sql(op)] + [Placeholder(i)];
    PlaceholdersOfSql(op);
    PlaceholdersOfHole(i);
    PlaceholdersAppend([Sql(op)], [Placeholder(i)]);
  }

  lemma RangePlaceholders(op: string, i: nat)
    ensures PlaceholderNumbers([Sql(op), Placeholder(i), Sql(And), Placeholder(i + 1)]) == [i, i + 1]
  {
    assert [Sql(op), Placeholder(i), Sql(And), Placeholder(i + 1)]
        == [Sql(op), Placeholder(i)] + [Sql(And), Placeholder(i + 1)];
    BoundPlaceholders(op, i);
    BoundPlaceholders(And, i + 1);
    PlaceholdersAppend([Sql(op), Placeholder(i)], [Sql(And), Placeholder(i + 1)]);
  }

  function Start(): (b: Builder)
    ensures Lockstep(b) && b.values == []
  {
    PlaceholdersOfSql(SelectIpos);
    Builder([Sql(SelectIpos)], [], 1)
  }

  /** Append a clause's text and push its parameters, advancing `index` by as many. */
  function Append(b: Builder, c: Clause): Builder {
    Builder(b.query + ClauseTokens(c, b.index), b.values + ClauseValues(c), b.index + |ClauseValues(c)|)
  }

  /** Appending a clause keeps the lockstep: its placeholders are the next free numbers. */
  lemma AppendKeepsLockstep(b: Builder, c: Clause)
    requires Lockstep(b)
    ensures Lockstep(Append(b, c))
  {
    var q := b.query + ClauseTokens(c, b.index);
    var vs := b.values + ClauseValues(c);
    PlaceholdersAppend(b.query, ClauseTokens(c, b.index));
    ClausePlaceholders(c, b.index);
    assert CountsFromOne(PlaceholderNumbers(q), |vs|);
    assert forall k :: |b.query| <= k < |q| ==> q[k] == ClauseTokens(c, b.index)[k - |b.query|];
  }

  function AppendAll(b: Builder, cs: seq<Clause>): Builder
    decreases |cs|
  {
    if |cs| == 0 then b else AppendAll(Append(b, cs[0]), cs[1..])
  }

  lemma {:induction false} AppendAllKeepsLockstep(b: Builder, cs: seq<Clause>)
    requires Lockstep(b)
    ensures Lockstep(AppendAll(b, cs))
    decreases |cs|
  {
    if |cs| > 0 {
      AppendKeepsLockstep(b, cs[0]);
      AppendAllKeepsLockstep(Append(b, cs[0]), cs[1..]);
    }
  }

  // ---------------------------------------------------------------------------------------
  // The three filter decisions

  /** `name && typeof name === "string"`. */
  predicate NameFires(name: JsVal) {
    Truthy(name) && name.Str?
  }

  function NameClause(name: JsVal): (c: Option<Clause>)
    ensures c.Some? <==> name.Str? && |name.s| > 0
    ensures c.Some? ==> c.value == NameLike("%" + Trim(name.s) + "%")
  {
    if NameFires(name) then Some(NameLike("%" + Trim(name.s) + "%")) else None
  }

  /** A name of white space only yields the pattern `%%`, which matches every company. */
  lemma BlankNameMatchesAll(name: string)
    requires |name| > 0 && forall k :: 0 <= k < |name| ==> IsWhiteSpace(name[k])
    ensures NameClause(Str(name)) == Some(NameLike("%%"))
  {
    assert Trim(name) == "";
    assert "%" + "" + "%" == "%%";
  }

  /** `x ? new Date(x).toISOString().split("T")[0] : null`. */
  function DayBound(x: JsVal, toIsoDay: JsVal -> Option<IsoDay>): Result<Option<IsoDay>, SearchError> {
    if !Truthy(x) then Success(None)
    else match toIsoDay(x)
      case None => Failure(InvalidDate)
      case Some(d) => Success(Some(d))
  }

  /** A date bound that is given but does not denote a valid date. */
  predicate Unparseable(x: JsVal, toIsoDay: JsVal -> Option<IsoDay>) {
    Truthy(x) && toIsoDay(x).None?
  }

  function DateClause(startDate: JsVal, endDate: JsVal, toIsoDay: JsVal -> Option<IsoDay>)
    : (r: Result<Option<Clause>, SearchError>)
    ensures r.Failure? <==> Unparseable(startDate, toIsoDay) || Unparseable(endDate, toIsoDay)
    ensures r.Success? ==> (r.value.None? <==> !Truthy(startDate) && !Truthy(endDate))
    ensures r.Success? && Truthy(startDate) && Truthy(endDate) ==>
              r.value == Some(OpeningRange(toIsoDay(startDate).value, toIsoDay(endDate).value))
    ensures r.Success? && Truthy(startDate) && !Truthy(endDate) ==>
              r.value == Some(OpeningOnOrAfter(toIsoDay(startDate).value))
    ensures r.Success? && !Truthy(startDate) && Truthy(endDate) ==>
              r.value == Some(OpeningOnOrBefore(toIsoDay(endDate).value))
  {
    if Truthy(startDate) || Truthy(endDate) then
      var start :- DayBound(startDate, toIsoDay);
      var end :- DayBound(endDate, toIsoDay);
      if start.Some? && end.Some? then Success(Some(OpeningRange(start.value, end.value)))
      else if start.Some? then Success(Some(OpeningOnOrAfter(start.value)))
      else if end.Some? then Success(Some(OpeningOnOrBefore(end.value)))
      else Success(None)
    else
      Success(None)
  }

  /** `x ? parseFloat(x) : null`. */
  datatype PriceBound = NullBound | Parsed(n: JsNumber) {
    /** `isNaN(bound)`; `isNaN(null)` is false because `Number(null)` is 0. */
    predicate IsNaN() {
      Parsed? && n.NaN?
    }

    /** The parameter pushed for a bound that is not NaN. */
    function ToParam(): Param {
      if NullBound? then NullParam else NumParam(n)
    }
  }

  function PriceBoundOf(x: JsVal, parseFloat: JsVal -> JsNumber): PriceBound {
    if Truthy(x) then Parsed(parseFloat(x)) else NullBound
  }

  function PriceClause(minPrice: JsVal, maxPrice: JsVal, parseFloat: JsVal -> JsNumber)
    : (c: Option<Clause>)
    // Both bounds usable (a missing one counts as usable): a range, possibly with a NULL end.
    ensures c.Some? && c.value.PriceRange? <==>
              (Truthy(minPrice) || Truthy(maxPrice))
              && !PriceBoundOf(minPrice, parseFloat).IsNaN() && !PriceBoundOf(maxPrice, parseFloat).IsNaN()
    // One-sided clauses only when the other bound was given and parses to NaN.
    ensures c.Some? && c.value.PriceAtLeast? <==>
              !PriceBoundOf(minPrice, parseFloat).IsNaN() && PriceBoundOf(maxPrice, parseFloat).IsNaN()
    ensures c.Some? && c.value.PriceAtMost? <==>
              PriceBoundOf(minPrice, parseFloat).IsNaN() && !PriceBoundOf(maxPrice, parseFloat).IsNaN()
    ensures c.None? <==>
              (!Truthy(minPrice) && !Truthy(maxPrice))
              || (PriceBoundOf(minPrice, parseFloat).IsNaN() && PriceBoundOf(maxPrice, parseFloat).IsNaN())
    ensures c.Some? ==> !c.value.NameLike? && !c.value.OpeningRange?
                        && !c.value.OpeningOnOrAfter? && !c.value.OpeningOnOrBefore?
    ensures c.Some? ==> forall k :: 0 <= k < |ClauseValues(c.value)| ==>
                          ClauseValues(c.value)[k] != NumParam(NaN)
    // The bound values: a parsed number, or NULL for a missing bound.
    ensures c.Some? && c.value.PriceRange? ==>
              c.value == PriceRange(PriceBoundOf(minPrice, parseFloat).ToParam(),
                                    PriceBoundOf(maxPrice, parseFloat).ToParam())
    ensures c.Some? && c.value.PriceAtLeast? ==>
              c.value == PriceAtLeast(PriceBoundOf(minPrice, parseFloat).ToParam())
    ensures c.Some? && c.value.PriceAtMost? ==>
              c.value == PriceAtMost(PriceBoundOf(maxPrice, parseFloat).ToParam())
  {
    if Truthy(minPrice) || Truthy(maxPrice) then
      var min := PriceBoundOf(minPrice, parseFloat);
      var max := PriceBoundOf(maxPrice, parseFloat);
      if !min.IsNaN() && !max.IsNaN() then Some(PriceRange(min.ToParam(), max.ToParam()))
      else if !min.IsNaN() then Some(PriceAtLeast(min.ToParam()))
      else if !max.IsNaN() then Some(PriceAtMost(max.ToParam()))
      else None
    else
      None
  }

  /** A minimum with no maximum is bound as `BETWEEN min AND NULL`, not as `>= min`. */
  lemma OneSidedMinimumBindsNull(minPrice: JsVal, maxPrice: JsVal, parseFloat: JsVal -> JsNumber)
    requires Truthy(minPrice) && !parseFloat(minPrice).NaN? && !Truthy(maxPrice)
    ensures PriceClause(minPrice, maxPrice, parseFloat)
            == Some(PriceRange(NumParam(parseFloat(minPrice)), NullParam))
  {
  }

  /** A maximum with no minimum is bound as `BETWEEN NULL AND max`. */
  lemma OneSidedMaximumBindsNull(minPrice: JsVal, maxPrice: JsVal, parseFloat: JsVal -> JsNumber)
    requires !Truthy(minPrice) && Truthy(maxPrice) && !parseFloat(maxPrice).NaN?
    ensures PriceClause(minPrice, maxPrice, parseFloat)
            == Some(PriceRange(NullParam, NumParam(parseFloat(maxPrice))))
  {
  }

  /** A maximum that is not a number next to no minimum gives `>= NULL`. */
  lemma MissingMinimumWithBadMaximum(minPrice: JsVal, maxPrice: JsVal, parseFloat: JsVal -> JsNumber)
    requires !Truthy(minPrice) && Truthy(maxPrice) && parseFloat(maxPrice).NaN?
    ensures PriceClause(minPrice, maxPrice, parseFloat) == Some(PriceAtLeast(NullParam))
  {
  }

  // ---------------------------------------------------------------------------------------
  // The whole builder

  datatype Query = Query(text: seq<Token>, values: seq<Param>)

  function OptionToSeq<T>(o: Option<T>): seq<T> {
    if o.Some? then [o.value] else []
  }

  /** The clauses a request selects, in the order the handler appends them. */
  function Clauses(req: SearchRequest, toIsoDay: JsVal -> Option<IsoDay>,
                   parseFloat: JsVal -> JsNumber): Result<seq<Clause>, SearchError>
  {
    var date :- DateClause(req.startDate, req.endDate, toIsoDay);
    Success(OptionToSeq(NameClause(req.name)) + OptionToSeq(date)
            + OptionToSeq(PriceClause(req.minPrice, req.maxPrice, parseFloat)))
  }

  /** Every parameter of a sequence of clauses, in order. */
  function AllValues(cs: seq<Clause>): seq<Param> {
    if |cs| == 0 then [] else ClauseValues(cs[0]) + AllValues(cs[1..])
  }

  /** The text of a sequence of clauses, numbered from `$i`. */
  function AllTokens(cs: seq<Clause>, i: nat): seq<Token>
    decreases |cs|
  {
    if |cs| == 0 then [] else ClauseTokens(cs[0], i) + AllTokens(cs[1..], i + |ClauseValues(cs[0])|)
  }

  /** After all steps the parameters are the clauses' values, in order. */
  lemma {:induction false} AppendAllValues(b: Builder, cs: seq<Clause>)
    ensures AppendAll(b, cs).values == b.values + AllValues(cs)
    decreases |cs|
  {
    if |cs| == 0 {
      assert b.values + [] == b.values;
    } else {
      AppendAllValues(Append(b, cs[0]), cs[1..]);
      assert (b.values + ClauseValues(cs[0])) + AllValues(cs[1..])
          == b.values + (ClauseValues(cs[0]) + AllValues(cs[1..]));
    }
  }

  /** After all steps the text is the clauses' tokens, numbered from the starting index. */
  lemma {:induction false} AppendAllQuery(b: Builder, cs: seq<Clause>)
    ensures AppendAll(b, cs).query == b.query + AllTokens(cs, b.index)
    decreases |cs|
  {
    if |cs| == 0 {
      assert b.query + [] == b.query;
    } else {
      var b1 := Append(b, cs[0]);
      var t0 := ClauseTokens(cs[0], b.index);
      assert b1.query == b.query + t0 && b1.index == b.index + |ClauseValues(cs[0])|;
      AppendAllQuery(b1, cs[1..]);
      var rest := AllTokens(cs[1..], b1.index);
      assert AppendAll(b, cs).query == (b.query + t0) + rest;
      assert AllTokens(cs, b.index) == t0 + rest;
      assert (b.query + t0) + rest == b.query + (t0 + rest);
    }
  }

  /** Closing a builder in lockstep with the ORDER BY keeps its placeholders and fixed text. */
  lemma CloseQuery(b: Builder)
    requires Lockstep(b) && |b.query| >= 1 && b.query[0] == Sql(SelectIpos)
    ensures var text := b.query + [Sql(OrderByOpeningDesc)];
            && CountsFromOne(PlaceholderNumbers(text), |b.values|)
            && FixedTextOnly(text)
            && text[0] == Sql(SelectIpos)
            && text[|text| - 1] == Sql(OrderByOpeningDesc)
  {
    PlaceholdersAppend(b.query, [Sql(OrderByOpeningDesc)]);
    PlaceholdersOfSql(OrderByOpeningDesc);
  }

  /** The handler's query: the selected clauses between the SELECT and the ORDER BY. */
  function BuildSearch(req: SearchRequest, toIsoDay: JsVal -> Option<IsoDay>,
                       parseFloat: JsVal -> JsNumber): (r: Result<Query, SearchError>)
    ensures r.Failure? <==> Unparseable(req.startDate, toIsoDay) || Unparseable(req.endDate, toIsoDay)
    ensures r.Success? ==>
              && CountsFromOne(PlaceholderNumbers(r.value.text), |r.value.values|)
              && FixedTextOnly(r.value.text)
              && |r.value.text| >= 2
              && r.value.text[0] == Sql(SelectIpos)
              && r.value.text[|r.value.text| - 1] == Sql(OrderByOpeningDesc)
              && r.value.values == AllValues(Clauses(req, toIsoDay, parseFloat).value)
              && r.value.text == [Sql(SelectIpos)] + AllTokens(Clauses(req, toIsoDay, parseFloat).value, 1)
                                 + [Sql(OrderByOpeningDesc)]
  {
    var cs :- Clauses(req, toIsoDay, parseFloat);
    var b := AppendAll(Start(), cs);
    AppendAllKeepsLockstep(Start(), cs);
    AppendAllValues(Start(), cs);
    AppendAllQuery(Start(), cs);
    CloseQuery(b);
    Success(Query(b.query + [Sql(OrderByOpeningDesc)], b.values))
  }

  /** At most five parameters are ever bound. */
  lemma AtMostFiveValues(req: SearchRequest, toIsoDay: JsVal -> Option<IsoDay>,
                         parseFloat: JsVal -> JsNumber)
    requires !Unparseable(req.startDate, toIsoDay) && !Unparseable(req.endDate, toIsoDay)
    ensures BuildSearch(req, toIsoDay, parseFloat).Success?
    ensures |BuildSearch(req, toIsoDay, parseFloat).value.values| <= 5
  {
    var name := NameClause(req.name);
    var date := DateClause(req.startDate, req.endDate, toIsoDay).value;
    var price := PriceClause(req.minPrice, req.maxPrice, parseFloat);
    var n, d, p := OptionToSeq(name), OptionToSeq(date), OptionToSeq(price);
    assert Clauses(req, toIsoDay, parseFloat).value == n + d + p;
    AllValuesAppend(n, d);
    AllValuesAppend(n + d, p);
    AllValuesOfOption(name);
    AllValuesOfOption(date);
    AllValuesOfOption(price);
  }

  /** The values of at most one clause. */
  lemma AllValuesOfOption(o: Option<Clause>)
    ensures |AllValues(OptionToSeq(o))| <= 2
    ensures o.Some? && o.value.NameLike? ==> |AllValues(OptionToSeq(o))| == 1
  {
    if o.Some? {
      assert OptionToSeq(o)[1..] == [];
    }
  }

  lemma {:induction false} AllValuesAppend(a: seq<Clause>, b: seq<Clause>)
    ensures AllValues(a + b) == AllValues(a) + AllValues(b)
    decreases |a|
  {
    if |a| == 0 {
      assert a + b == b;
    } else {
      assert (a + b)[1..] == a[1..] + b;
      AllValuesAppend(a[1..], b);
    }
  }

  /** The query text depends only on which kinds of clause were selected, never on the
      values the user supplied: those travel only in the parameter list. */
  lemma {:induction false} TextDependsOnlyOnKinds(cs: seq<Clause>, ds: seq<Clause>, i: nat)
    requires |cs| == |ds|
    requires forall k :: 0 <= k < |cs| ==> SameKind(cs[k], ds[k])
    ensures AllTokens(cs, i) == AllTokens(ds, i)
    decreases |cs|
  {
    if |cs| > 0 {
      assert |ClauseValues(cs[0])| == |ClauseValues(ds[0])|;
      TextDependsOnlyOnKinds(cs[1..], ds[1..], i + |ClauseValues(cs[0])|);
    }
  }

  /** Two requests that select the same kinds of filter produce the same SQL text, whatever
      names, dates and prices they carry. */
  lemma SearchTextIndependentOfUserData(r1: SearchRequest, r2: SearchRequest,
                                        toIsoDay: JsVal -> Option<IsoDay>,
                                        parseFloat: JsVal -> JsNumber)
    requires Clauses(r1, toIsoDay, parseFloat).Success? && Clauses(r2, toIsoDay, parseFloat).Success?
    requires |Clauses(r1, toIsoDay, parseFloat).value| == |Clauses(r2, toIsoDay, parseFloat).value|
    requires forall k :: 0 <= k < |Clauses(r1, toIsoDay, parseFloat).value| ==>
               SameKind(Clauses(r1, toIsoDay, parseFloat).value[k], Clauses(r2, toIsoDay, parseFloat).value[k])
    ensures BuildSearch(r1, toIsoDay, parseFloat).value.text == BuildSearch(r2, toIsoDay, parseFloat).value.text
  {
    var cs := Clauses(r1, toIsoDay, parseFloat).value;
    var ds := Clauses(r2, toIsoDay, parseFloat).value;
    AppendAllQuery(Start(), cs);
    AppendAllQuery(Start(), ds);
    TextDependsOnlyOnKinds(cs, ds, Start().index);
  }

  // ---------------------------------------------------------------------------------------
  // The route

  datatype SearchReply<R> = Ipos(rows: seq<R>) | InternalServerError

  /** The handler: build the query, run it (`run` is the database: None when it throws),
      answer with the rows or with 500. */
  function Search<R>(req: SearchRequest, toIsoDay: JsVal -> Option<IsoDay>,
                     parseFloat: JsVal -> JsNumber, run: Query -> Option<seq<R>>): (reply: SearchReply<R>)
    ensures reply.InternalServerError? <==>
              Unparseable(req.startDate, toIsoDay) || Unparseable(req.endDate, toIsoDay)
              || run(BuildSearch(req, toIsoDay, parseFloat).value).None?
    ensures reply.Ipos? ==> reply.rows == run(BuildSearch(req, toIsoDay, parseFloat).value).value
  {
    match BuildSearch(req, toIsoDay, parseFloat)
    case Failure(_) => InternalServerError
    case Success(q) =>
      match run(q)
      case None => InternalServerError
      case Some(rows) => Ipos(rows)
  }
}

=== FILE: user_routes.dfy ===
/** The user routes of the API: `GET /users/:id` with its id validator, `POST /register`
    with its duplicate check, and `POST /login`.

    The `users` table is a sequence of stored users; a statement that may throw, the password
    hasher and comparer (bcrypt) and the token signer (jwt) are parameters. Email and phone
    number are `None` when the request leaves them out: the driver binds `undefined` as SQL
    NULL, and NULL equals nothing, not even NULL. */
module UserRoutes {
  import opened Wrappers
  import opened JsValues
  import opened Collections
  import Auth

  // ---------------------------------------------------------------------------------------
  // GET /users/:id

  predicate IsDigit(c: char) {
    '0' <= c <= '9'
  }

  /** Every character is an ASCII digit (`\d` without the `u` flag). */
  function AllDigits(s: string): (ok: bool)
    ensures ok <==> forall i :: 0 <= i < |s| ==> IsDigit(s[i])
  {
    if |s| == 0 then true
    else
      var rest := AllDigits(s[1..]);
      assert forall i :: 1 <= i < |s| ==> s[i] == s[1..][i - 1];
      IsDigit(s[0]) && rest
  }

  /** `/^\d+$/.test(id)`: one or more digits and nothing else. */
  function ValidUserId(id: string): (ok: bool)
    ensures ok <==> |id| > 0 && forall i :: 0 <= i < |id| ==> IsDigit(id[i])
  {
    |id| > 0 && AllDigits(id)
  }

  function DigitChar(d: nat): (c: char)
    requires d < 10
    ensures IsDigit(c)
  {
    ['0', '1', '2', '3', '4', '5', '6', '7', '8', '9'][d]
  }

  /** The decimal numeral of `n`, as a client writes an id into the URL. */
  function Decimal(n: nat): string
    decreases n
  {
    if n < 10 then [DigitChar(n)] else Decimal(n / 10) + [DigitChar(n % 10)]
  }

  /** Every non-negative integer, written in decimal, passes the validator. */
  lemma {:induction false} DecimalIdAccepted(n: nat)
    ensures ValidUserId(Decimal(n))
    decreases n
  {
    if n >= 10 {
      DecimalIdAccepted(n / 10);
      var s := Decimal(n / 10) + [DigitChar(n % 10)];
      assert forall i :: 0 <= i < |Decimal(n / 10)| ==> s[i] == Decimal(n / 10)[i];
    }
  }

  datatype UserReply<U> =
    | InvalidUserId      // 400 "Invalid user ID format"
    | UserNotFound       // 404 "User not found"
    | UserFound(user: U) // 200 with the first row
    | UserServerError    // 500 "Server Error"

  /** `select(id)` runs `SELECT id, full_name, email FROM users WHERE id = $1`; `None` when it
      throws. */
  function GetUserById<U>(id: string, select: string -> Option<seq<U>>): (r: UserReply<U>)
    ensures r.InvalidUserId? <==> !ValidUserId(id)
    ensures ValidUserId(id) ==>
              && (r.UserServerError? <==> select(id).None?)
              && (r.UserNotFound? <==> select(id) == Some([]))
              && (r.UserFound? <==> select(id).Some? && |select(id).value| > 0)
    ensures r.UserFound? ==> r.user == select(id).value[0]
  {
    if !ValidUserId(id) then InvalidUserId
    else
      match select(id)
      case None => UserServerError
      case Some(rows) => if |rows| == 0 then UserNotFound else UserFound(rows[0])
  }

  /** A malformed id is rejected before the database is consulted. */
  lemma InvalidIdSkipsDatabase<U>(id: string, s1: string -> Option<seq<U>>, s2: string -> Option<seq<U>>)
    requires exists i :: 0 <= i < |id| && !IsDigit(id[i])
    ensures GetUserById(id, s1) == GetUserById(id, s2) == InvalidUserId
  {
  }

  // ---------------------------------------------------------------------------------------
  // The users table

  datatype StoredUser = StoredUser(
    id: int,
    fullName: JsVal,
    email: Option<string>,
    passwordHash: string,
    phone: Option<string>,
    profileImage: JsVal,
    role: JsVal)

  /** SQL `a = b` in a WHERE clause: NULL on either side never matches. */
  predicate SqlEq(a: Option<string>, b: Option<string>) {
    a.Some? && b.Some? && a.value == b.value
  }

  /** No two stored users share an email or a phone number. */
  predicate Unique(store: seq<StoredUser>) {
    forall i, j :: 0 <= i < j < |store| ==>
      !SqlEq(store[i].email, store[j].email) && !SqlEq(store[i].phone, store[j].phone)
  }

  // ---------------------------------------------------------------------------------------
  // POST /register

  datatype RegisterRequest = RegisterRequest(
    fullName: JsVal,
    email: Option<string>,
    password: JsVal,
    phone: Option<string>,
    profileImage: JsVal,
    role: JsVal)

  /** `selectFails`: the duplicate query throws; `hash(password)`: bcrypt with 10 rounds,
      `None` when it throws; `insertFails(u)`: the INSERT of `u` throws; `newId`: the id the
      database assigns. */
  datatype RegisterEnv = RegisterEnv(
    selectFails: bool,
    hash: JsVal -> Option<string>,
    insertFails: StoredUser -> bool,
    newId: int)

  datatype RegisterReply =
    | Registered(user: StoredUser) // 201 with the inserted row
    | AlreadyExists                // 400 "Email or Phone Number already exists"
    | RegisterServerError          // 500 "Server Error"

  datatype Registration = Registration(reply: RegisterReply, store: seq<StoredUser>)

  /** `WHERE email = $1 OR phone_number = $2`. */
  predicate Clashes(u: StoredUser, email: Option<string>, phone: Option<string>) {
    SqlEq(u.email, email) || SqlEq(u.phone, phone)
  }

  function NewUser(req: RegisterRequest, hash: string, id: int): StoredUser {
    StoredUser(id, req.fullName, req.email, hash, req.phone, req.profileImage, req.role)
  }

  function Register(store: seq<StoredUser>, req: RegisterRequest, env: RegisterEnv): (r: Registration)
    ensures r.reply.AlreadyExists? <==>
              !env.selectFails && exists u :: u in store && Clashes(u, req.email, req.phone)
    ensures r.reply.Registered? <==>
              && !env.selectFails
              && (forall u :: u in store ==> !Clashes(u, req.email, req.phone))
              && env.hash(req.password).Some?
              && !env.insertFails(NewUser(req, env.hash(req.password).value, env.newId))
    // The stored row carries the request's fields and the hash, never the password itself.
    ensures r.reply.Registered? ==>
              && r.reply.user == NewUser(req, env.hash(req.password).value, env.newId)
              && r.store == store + [r.reply.user]
    ensures !r.reply.Registered? ==> r.store == store
  {
    var existing := Filter(store, u => Clashes(u, req.email, req.phone));
    FilterEmptyIff(store, u => Clashes(u, req.email, req.phone));
    if env.selectFails then Registration(RegisterServerError, store)
    else if |existing| > 0 then Registration(AlreadyExists, store)
    else
      match env.hash(req.password)
      case None => Registration(RegisterServerError, store)
      case Some(h) =>
        var u := NewUser(req, h, env.newId);
        if env.insertFails(u) then Registration(RegisterServerError, store)
        else Registration(Registered(u), store + [u])
  }

  /** A registration keeps emails and phone numbers unique. */
  lemma RegisterPreservesUnique(store: seq<StoredUser>, req: RegisterRequest, env: RegisterEnv)
    requires Unique(store)
    ensures Unique(Register(store, req, env).store)
  {
    var r := Register(store, req, env);
    if r.reply.Registered? {
      var s := r.store;
      forall i, j | 0 <= i < j < |s|
        ensures !SqlEq(s[i].email, s[j].email) && !SqlEq(s[i].phone, s[j].phone)
      {
        if j == |store| {
          assert s[i] in store;
          assert !Clashes(s[i], req.email, req.phone);
        }
      }
    }
  }

  /** The store after a sequence of registrations, each with its own environment. */
  function RegisterAll(store: seq<StoredUser>, calls: seq<(RegisterRequest, RegisterEnv)>): seq<StoredUser>
    decreases |calls|
  {
    if |calls| == 0 then store
    else RegisterAll(Register(store, calls[0].0, calls[0].1).store, calls[1..])
  }

  /** However the requests and failures interleave, no two users end up sharing an email or
      a phone number. */
  lemma {:induction false} RegisterAllPreservesUnique(store: seq<StoredUser>,
                                                       calls: seq<(RegisterRequest, RegisterEnv)>)
    requires Unique(store)
    ensures Unique(RegisterAll(store, calls))
    decreases |calls|
  {
    if |calls| > 0 {
      RegisterPreservesUnique(store, calls[0].0, calls[0].1);
      RegisterAllPreservesUnique(Register(store, calls[0].0, calls[0].1).store, calls[1..]);
    }
  }

  /** Without an email or a phone number nothing clashes: NULL matches no stored NULL. */
  lemma MissingContactNeverClashes(store: seq<StoredUser>, req: RegisterRequest, env: RegisterEnv)
    requires req.email.None? && req.phone.None? && !env.selectFails
    ensures !Register(store, req, env).reply.AlreadyExists?
  {
  }

  // ---------------------------------------------------------------------------------------
  // POST /login

  /** The claims signed into the session token. */
  datatype Claims = Claims(userId: int, role: JsVal)

  /** The user fields the response body discloses: not the hash, not the phone number. */
  datatype PublicUser = PublicUser(id: int, fullName: JsVal, email: Option<string>, role: JsVal)

  function Public(u: StoredUser): PublicUser {
    PublicUser(u.id, u.fullName, u.email, u.role)
  }

  /** `selectFails`: the lookup throws; `compare(password, hash)`: bcrypt's verdict, `None` when
      it throws; `sign(claims)`: the signed token, `None` when signing throws. */
  datatype LoginEnv = LoginEnv(
    selectFails: bool,
    compare: (JsVal, string) -> Option<bool>,
    sign: Claims -> Option<string>)

  datatype LoginReply =
    | LoggedIn(user: PublicUser, cookies: map<string, JsVal>) // 200, token set as a cookie
    | InvalidCredentials                                      // 401 "Invalid email or password"
    | LoginServerError                                        // 500 "Server Error"

  /** `SELECT * FROM users WHERE email = $1`, in table order. */
  function WithEmail(store: seq<StoredUser>, email: Option<string>): (rows: seq<StoredUser>)
    ensures rows == [] <==> forall u :: u in store ==> !SqlEq(u.email, email)
    ensures forall u :: u in rows ==> u in store && SqlEq(u.email, email)
  {
    FilterEmptyIff(store, (u: StoredUser) => SqlEq(u.email, email));
    Filter(store, (u: StoredUser) => SqlEq(u.email, email))
  }

  function Login(store: seq<StoredUser>, email: Option<string>, password: JsVal, env: LoginEnv): (r: LoginReply)
    // An unknown email and a wrong password get the same answer.
    ensures r.InvalidCredentials? <==>
              && !env.selectFails
              && (WithEmail(store, email) == []
                  || env.compare(password, WithEmail(store, email)[0].passwordHash) == Some(false))
    ensures r.LoggedIn? <==>
              && !env.selectFails
              && WithEmail(store, email) != []
              && env.compare(password, WithEmail(store, email)[0].passwordHash) == Some(true)
              && env.sign(Claims(WithEmail(store, email)[0].id, WithEmail(store, email)[0].role)).Some?
    // The session belongs to a stored user with that email whose hash the password matched.
    ensures r.LoggedIn? ==>
              exists u :: u in store && SqlEq(u.email, email)
                && env.compare(password, u.passwordHash) == Some(true)
                && r.user == Public(u)
                && env.sign(Claims(u.id, u.role)).Some?
                && r.cookies == map[Auth.CookieName := Str(env.sign(Claims(u.id, u.role)).value)]
    // That user is the first row the lookup returns, even when several share the email.
    ensures r.LoggedIn? ==>
              var u := WithEmail(store, email)[0];
              && r.user == Public(u)
              && r.cookies == map[Auth.CookieName := Str(env.sign(Claims(u.id, u.role)).value)]
  {
    var rows := WithEmail(store, email);
    if env.selectFails then LoginServerError
    else if |rows| == 0 then InvalidCredentials
    else
      var user := rows[0];
      assert user in rows;
      match env.compare(password, user.passwordHash)
      case None => LoginServerError
      case Some(isMatch) =>
        if !isMatch then InvalidCredentials
        else
          match env.sign(Claims(user.id, user.role))
          case None => LoginServerError
          case Some(token) => LoggedIn(Public(user), map[Auth.CookieName := Str(token)])
  }

  /** With unique emails the lookup finds at most one user, so `rows[0]` is the only
      candidate. */
  lemma UniqueEmailAtMostOneRow(store: seq<StoredUser>, email: Option<string>)
    requires Unique(store)
    ensures |WithEmail(store, email)| <= 1
  {
    if |WithEmail(store, email)| >= 2 {
      TwoRowsShareEmail(store, email);
    }
  }

  /** Two rows found by email are two positions of the table holding the same email. */
  lemma TwoRowsShareEmail(store: seq<StoredUser>, email: Option<string>)
    requires |WithEmail(store, email)| >= 2
    ensures exists i, j :: 0 <= i < j < |store| && SqlEq(store[i].email, store[j].email)
  {
    var rows := WithEmail(store, email);
    var idx := KeptPositions(store, (u: StoredUser) => SqlEq(u.email, email));
    KeptPositionsOrdered(store, (u: StoredUser) => SqlEq(u.email, email));
    assert rows[0] in rows && rows[1] in rows;
    assert SqlEq(store[idx[0]].email, store[idx[1]].email);
  }

  /** What the token library guarantees: a signed token is a non-empty string that the
      verifier decodes back to the claims it was signed over. */
  ghost predicate SignVerifyRoundTrip(sign: Claims -> Option<string>, verify: JsVal -> Option<Claims>) {
    forall c :: sign(c).Some? ==> |sign(c).value| > 0 && verify(Str(sign(c).value)) == Some(c)
  }

  /** The cookie login sets is the one the middleware reads: presented back, it passes
      `authenticate`, which stores as `req.user` the id and role of the user whose password
      matched, the first user with that email. */
  lemma LoginCookieAuthenticates(store: seq<StoredUser>, email: Option<string>, password: JsVal,
                                 env: LoginEnv, verify: JsVal -> Option<Claims>)
    requires SignVerifyRoundTrip(env.sign, verify)
    requires Login(store, email, password, env).LoggedIn?
    ensures var r := Login(store, email, password, env);
            var e := Auth.Authenticate(r.cookies, verify);
            && WithEmail(store, email) != []
            && r.user == Public(WithEmail(store, email)[0])
            && e.responses == [] && e.nextCalls == 1
            && e.user == Some(Claims(WithEmail(store, email)[0].id, WithEmail(store, email)[0].role))
            && e.user == Some(Claims(r.user.id, r.user.role))
  {
    var u := WithEmail(store, email)[0];
    var token := env.sign(Claims(u.id, u.role)).value;
    assert Login(store, email, password, env).cookies == map[Auth.CookieName := Str(token)];
    assert Auth.TokenOf(map[Auth.CookieName := Str(token)]) == Str(token);
  }
}

=== FILE: wrappers.dfy ===
/** Failure-compatible wrappers shared by every component of the model. */
module Wrappers {

  /** A value that may be absent; also used for calls into libraries that may throw
      (None stands for the exception). */
  datatype Option<+T> = None | Some(value: T) {

    predicate IsFailure() {
      None?
    }

    function PropagateFailure<U>(): Option<U>
      requires None?
    {
      None
    }

    function Extract(): T
      requires Some?
    {
      value
    }
  }

  /** Either a computed value or the error that replaced it. */
  datatype Result<+R, +E> = Success(value: R) | Failure(error: E) {

    predicate IsFailure() {
      Failure?
    }

    function PropagateFailure<U>(): Result<U, E>
      requires Failure?
    {
      Failure(error)
    }

    function Extract(): R
      requires Success?
    {
      value
    }
  }
}
